=== FILE: README.md ===
# Quine–McCluskey minimisation, modelled in Dafny

This project models the minimisation engine of `src/quine_mccluskey.c`. Its
input is a list of minterms of an `n`-variable Boolean function; its output is
a sum of products such as `(x2⋅x0') + (x1)`. The engine works in three stages,
and the project follows them module by module.

- **Prime-implicant generation** (`compute_prime_implicants`, with
  `add_term` and `already_exists`), in `terms.dfy`, `termlist.dfy` and
  `generation.dfy`.
  - A term is a pair (`bits`, `mask`). A set `mask` bit is a don't-care
    position.
  - Round 0 holds one term per minterm.
  - Each round merges every pair with equal masks whose bits differ in
    exactly one position. The merge is `(bits_i & bits_j, mask_i | diff)`.
    The merges, without duplicates, form the next round.
  - Terms that merged with nothing move, without duplicates, to the prime
    list.
- **Cover selection** (lines 164-245 of `perform_quine_mccluskey`), in
  `selection.dfy`.
  - First comes one pass over the minterms. It selects every prime that is
    the only cover of some minterm, and marks everything that prime covers.
  - Then comes a greedy loop. Each time, it selects the unselected prime
    covering the most unmarked minterms, taking the earliest on a tie. It
    stops when everything is marked or no prime helps.
- **Rendering** (`print_term_expression`, `print_term_with_parens` and the
  join loop), in `render.dfy`.
  - A product lists `x<i>` or `x<i>'` for each unmasked position, from
    `n-1` down to 0, separated by `⋅` (U+22C5).
  - A product with no literal is written `1`.
  - The selected primes are written in parentheses, in prime order,
    separated by ` + `.
- **End to end**, in `minimize.dfy`: `Minimize` runs the three stages one
  after the other.

Bit operations are modelled on unbounded naturals with recursive definitions
of `&`, `|`, `^`, `& ~` and population count (`bits.dfy`). The C `int` width
never matters: there are at most 16 variables, so every value stays below
2^16.

### Main results

- **Generation.** The prime list holds, without duplicates, exactly the
  prime implicants. A prime implicant here is a well-formed term that covers
  only minterms and merges with no other such term.
  - Every minterm is covered by a prime.
  - Round `k` holds exactly the implicants with `k` masked positions, so
    `n`-variable minterms need at most `n + 1` rounds.
  - The list is exactly the one a reference run of the rounds leaves. Each
    round is the merges of the previous one in the order the pairs are
    scanned, and the primes join the list in round order. Both use append
    unless already present. So the list is ordered by number of masked
    positions.
- **Selection.** The essential pass selects exactly the essential primes.
  - The greedy loop terminates, because each step strictly reduces the
    number of unmarked minterms.
  - Each greedy step takes an unselected prime of greatest gain, the
    earliest one on a tie. The whole loop is a trace of such steps, so the
    selection is fixed by the primes and the minterms.
  - The final selection covers every minterm.
  - No more primes are selected than there are distinct minterms: every
    selected prime has a minterm of its own that it covers.
  - An essential prime belongs to every cover.
- **Rendering.** A rendered product reads back as its literals, and it
  holds at an `n`-variable value exactly when the term covers that value.
  - The rendered sum reads back as the literal lists of the selected primes,
    in order.
  - So the printed formula holds at an `n`-variable value exactly when that
    value is one of the minterms.

### Where descriptions of the program and its code differ

- **Essential-pass order.** The essential pass is sometimes described as
  order dependent. In the code it is not:
  - whether a prime is selected at line 195 depends only on how many primes
    cover the minterm, never on `covered`;
  - so the pass selects exactly the essential primes, whatever the order of
    the minterms;
  - the model follows the code, and `Selection.EssentialPass` states this.
- **Distinct minterms.** Minterms are sometimes described as distinct, but
  `src/main.c` does not filter duplicates. The model accepts duplicates.

## Model

| member | source | states |
|---|---|---|
| Bits.SingleBitIsPow2 | src/quine_mccluskey.c:83 | `diff && (diff & (diff - 1)) == 0` holds exactly when `diff` is a power of two, i.e. the two `bits` differ in exactly one position |
| Bits.TestBit | src/quine_mccluskey.c:124-125 | the test `x & (1 << i)` is non-zero exactly when bit `i` of `x` is set |
| Terms.CoversBits | src/quine_mccluskey.c:112-115 | `covers_term` holds exactly when the minterm agrees with `bits` on every position not set in `mask` |
| Terms.MintermCovers | src/quine_mccluskey.c:61-63 | a starting term `(m, 0)` is well formed, has no masked position and covers `m` and nothing else |
| Terms.CombineCovers | src/quine_mccluskey.c:81-87 | the merge of two combinable well-formed terms covers exactly the union of what the two cover |
| Terms.CombineShape | src/quine_mccluskey.c:83-87 | the merge keeps `bits & mask == 0` and has exactly one more masked position than its operands |
| Terms.CombineSymmetric | src/quine_mccluskey.c:80-87 | the pair test and the merge do not depend on the order of the two terms |
| Terms.Split | src/quine_mccluskey.c:79-92 | every well-formed term with a masked position is the merge of two combinable well-formed terms one rank lower, each covering part of it |
| TermLists.AlreadyExists | src/quine_mccluskey.c:29-40 | `already_exists` returns true exactly when an entry has the given `bits` and `mask` |
| TermLists.AddTerm | src/quine_mccluskey.c:6-27 | `add_term` appends exactly one entry and leaves the earlier entries unchanged; appending an absent term to a duplicate-free list keeps it duplicate free |
| TermLists.AppendNewMembers | src/quine_mccluskey.c:86-88 | a run of guarded appends holds exactly the old entries and the new terms, and adds no duplicate to a duplicate-free list |
| TermLists.AddIfAbsent | src/quine_mccluskey.c:86-88 | the guarded append adds `t` to the members, keeps the old prefix, grows by at most one, keeps the list duplicate free, and is one step of `AppendNew` (append unless present) |
| Generation.PairStep | src/quine_mccluskey.c:81-90 | a pair that passes the test marks both terms and appends its merge unless present; any other pair changes nothing |
| Generation.ScanPair | src/quine_mccluskey.c:81-90 | one pair step keeps the scan state (`Scanning`): `combined` equal to "merged in an earlier pair", and the next round equal to the merges of the earlier pairs in scan order, each appended unless already present |
| Generation.ScanRow | src/quine_mccluskey.c:80-91 | the inner loop for `i` carries the scan state from the pair `(i, i + 1)` to the end of row `i` |
| Generation.RowStart | src/quine_mccluskey.c:79-80 | the flags and the next round left by rows before `i` are the scan state at the start of row `i` |
| Generation.RowDone | src/quine_mccluskey.c:80-91 | the scan state at the end of row `i` gives the flags and the next round of all rows up to `i` |
| Generation.ScanUpToMembers | src/quine_mccluskey.c:79-90 | the list of merges scanned before pair `(i, j)` holds exactly the merges of the combinable pairs before `(i, j)` |
| Generation.ScanMergesMembers | src/quine_mccluskey.c:79-91 | the list of merges of the rows before `i` holds exactly the merges of the combinable pairs in those rows |
| Generation.CombineRound | src/quine_mccluskey.c:78-92 | after the pair scan, `combined[k]` holds exactly when `cur[k]` is combinable with some term of the round; the next round is the merges of the combinable pairs in scan order, each appended unless already present; so it holds exactly those merges, without duplicates |
| Generation.LeftOverStep | src/quine_mccluskey.c:95-99 | the uncombined terms among the first `i + 1` are those among the first `i`, plus `cur[i]` exactly when it was not combined |
| Generation.CollectOne | src/quine_mccluskey.c:95-99 | one step of the collection loop keeps the prefix, the membership, the no-duplicate and the exact-order invariants |
| Generation.CollectPrimes | src/quine_mccluskey.c:94-100 | the new prime list is the old one followed by the round's uncombined terms in round order, each skipped when already present; so it keeps its prefix, gains exactly those terms and stays duplicate free |
| Generation.OrderedAppend | src/quine_mccluskey.c:71-106 | appending the primes of round `k` after primes of lower rank keeps the list ordered by rank |
| Generation.FirstRound | src/quine_mccluskey.c:61-63 | round 0 holds exactly the well-formed implicants with no masked position |
| Generation.NextRound | src/quine_mccluskey.c:78-92 | if round `k` holds exactly the implicants of rank `k`, the merges of its combinable pairs are exactly the implicants of rank `k + 1` |
| Generation.RoundPrimes | src/quine_mccluskey.c:94-100 | the uncombined terms of round `k` are exactly the prime implicants of rank `k` |
| Generation.RankBound | src/quine_mccluskey.c:71-106 | an implicant of `n`-variable minterms has at most `n` masked positions, which bounds the number of rounds |
| Generation.AbovePrime | src/quine_mccluskey.c:79-100 | every implicant is covered by some prime implicant |
| Generation.StartRound | src/quine_mccluskey.c:57-64 | round 0 is one term per minterm, in minterm order, and holds exactly the rank-0 candidates |
| Generation.GenerateRound | src/quine_mccluskey.c:71-106 | one pass of the round loop is one step of the reference run, and takes a round of rank-`k` candidates with the primes of rank below `k` to the next round with the primes of rank below `k + 1`, still ordered by rank and duplicate free |
| Generation.TraceAgree | src/quine_mccluskey.c:57-106 | the reference run is deterministic: two runs from the same minterms agree round by round |
| Generation.Settled | src/quine_mccluskey.c:71 | once a round comes out empty, later rounds stay empty and the prime list stays fixed |
| Generation.GeneratedUnique | src/quine_mccluskey.c:57-106 | the rounds fix one prime list: two lists both left by the run are equal |
| Generation.AllPrimesFound | src/quine_mccluskey.c:71-106 | once round `k` is empty, the primes of rank below `k` are all the prime implicants, and they cover every minterm |
| Generation.PrimeImplicants | src/quine_mccluskey.c:42-110 | the prime list is exactly the one the round-by-round reference run leaves (merges in scan order, primes in round order, guarded appends); it is duplicate free, ordered by number of masked positions, and holds exactly the prime implicants; every minterm is covered by one of them; and the loop runs at most `n + 1` rounds for `n`-variable minterms |
| Selection.GainPositive | src/quine_mccluskey.c:222-228 | a prime's greedy count is positive exactly when it covers some unmarked minterm |
| Selection.MarkCount | src/quine_mccluskey.c:236-240 | marking what a prime covers removes exactly its greedy count from the unmarked minterms |
| Selection.EssentialNeeded | src/quine_mccluskey.c:195-202 | a prime that is the only cover of some minterm belongs to every selection covering all minterms |
| Selection.CountCovers | src/quine_mccluskey.c:186-193 | `best_index` is the last covering prime, or -1 when none covers; `count == 1` exactly when that prime is the only cover |
| Selection.MarkCovered | src/quine_mccluskey.c:197-201 | a minterm is marked afterwards exactly when it was marked before or the prime covers it |
| Selection.EssentialPass | src/quine_mccluskey.c:185-203 | after the pass, a prime is selected exactly when it is essential, and a minterm is marked exactly when a selected prime covers it |
| Selection.CheckAllCovered | src/quine_mccluskey.c:206-212 | `all_covered` is set exactly when every minterm is marked |
| Selection.CountGain | src/quine_mccluskey.c:222-227 | the inner count is the number of unmarked minterms the prime covers |
| Selection.PickBest | src/quine_mccluskey.c:217-233 | the choice is -1 exactly when no unselected prime covers an unmarked minterm; otherwise it is an unselected prime of greatest positive count, and every earlier unselected prime has a strictly smaller count |
| Selection.GreedyStep | src/quine_mccluskey.c:217-244 | one greedy round selects nothing exactly when no unselected prime covers an unmarked minterm; otherwise it selects one previously unselected prime of greatest positive gain, every earlier unselected prime having a strictly smaller gain, marks exactly what it covers, adds one to the selection count and strictly reduces the unmarked minterms |
| Selection.ChoiceUnique | src/quine_mccluskey.c:217-233 | at most one prime is the greedy choice: greatest gain, earliest on a tie |
| Selection.MoveUnique | src/quine_mccluskey.c:217-244 | one greedy round is determined by the flags it starts from: the same prime taken, the same selection and marks after |
| Selection.MoveNotStopped | src/quine_mccluskey.c:206-244 | a round that takes a prime never starts where the loop stops (everything marked or nothing left to gain) |
| Selection.GreedyExtend | src/quine_mccluskey.c:205-245 | a trace of greedy rounds followed by one more round is again a trace |
| Selection.GreedyTraceAgree | src/quine_mccluskey.c:205-245 | two traces from the same flags agree round by round as far as both go |
| Selection.GreedyStopAgree | src/quine_mccluskey.c:205-245 | a trace that ends where the loop stops is at least as long as any other trace from the same flags |
| Selection.GreedyRunUnique | src/quine_mccluskey.c:205-245 | the greedy loop has one outcome from given flags: two runs from the same start end with the same selection and marks |
| Selection.GreedyPass | src/quine_mccluskey.c:205-245 | the loop ends where the greedy trace ends (rounds each taking the greedy choice and marking what it covers, stopping once everything is marked or nothing is left to gain); it terminates, keeps earlier selections, adds at most as many primes as there were unmarked minterms, and gives each added prime a witness minterm of its own |
| Selection.PickedSet | src/quine_mccluskey.c:236 | setting an unset `selected` flag adds one to the number of selected primes |
| Selection.PickWitness | src/quine_mccluskey.c:220-239 | a greedy pick covers an unmarked minterm that no selected prime covers, so it has a witness distinct from every other selected prime's |
| Selection.EssentialWitnesses | src/quine_mccluskey.c:183-202 | each essential prime's sole-cover minterm is its own: no two essential primes share one |
| Selection.WitnessBound | src/quine_mccluskey.c:164-245 | when every selected prime has its own witness minterm, at most one prime is selected per distinct minterm |
| Selection.StopCovers | src/quine_mccluskey.c:242-244 | when every minterm has some covering prime, stopping because nothing helps implies every minterm is marked |
| Selection.CoverUnique | src/quine_mccluskey.c:164-245 | the primes and the minterms fix the selection: two selections both left by the greedy loop run from the essential primes are equal |
| Selection.SelectCover | src/quine_mccluskey.c:164-245 | the selection is the one the greedy loop leaves when run from the essential primes and the minterms they cover; every essential prime is selected; when every minterm has a covering prime, every minterm is covered by a selected prime; and no more primes are selected than there are distinct minterms |
| Render.DecimalRoundTrip | src/quine_mccluskey.c:131 | the `%d` numeral of a position reads back as that position and has no leading zero |
| Render.LiteralRoundTrip | src/quine_mccluskey.c:130-134 | `x<i>` and `x<i>'` read back as the literal they were written from |
| Render.LiteralsMeaning | src/quine_mccluskey.c:123-137 | a term's literals are exactly its unmasked positions in range, each with the term's bit, in strictly descending position order |
| Render.RenderPosition | src/quine_mccluskey.c:124-136 | one position of the scan: `printed` is set exactly when the positions from `i` down have a literal, and the text so far is those positions' literals joined by `⋅` |
| Render.ParenthesizedRoundTrip | src/quine_mccluskey.c:144-149 | a product written in parentheses reads back as the term's literal list, and is a part of the sum: parenthesized with no `+` inside |
| Render.RenderProduct | src/quine_mccluskey.c:117-142 | the scan writes the term's literals joined by `⋅`, or `1` when there are none |
| Render.ProductRoundTrip | src/quine_mccluskey.c:117-142 | a rendered product is non-empty and reads back as the term's literal list |
| Render.ProductMeaning | src/quine_mccluskey.c:117-142 | for an `n`-variable term and value, the term covers the value exactly when every printed literal is satisfied |
| Render.ChosenMembers | src/quine_mccluskey.c:265-266 | a term is among those written out exactly when it is a selected prime |
| Render.RenderSumPosition | src/quine_mccluskey.c:266-272 | one prime of the join loop: `first` stays set exactly while no prime up to `i` is selected, and the text so far is the parenthesized products of the selected primes up to `i`, in order, joined by ` + ` |
| Render.RenderSum | src/quine_mccluskey.c:264-273 | the join loop writes the selected primes in prime order, each as `(` product `)`, separated by ` + ` |
| Render.SumRoundTrip | src/quine_mccluskey.c:264-273 | the written sum reads back as the literal lists of the selected primes, in prime order |
| Render.SelectedMeaning | src/quine_mccluskey.c:264-273 | the written sum holds at a value exactly when the product of some selected prime holds there |
| Minimize.SumCovers | src/quine_mccluskey.c:112-142 | for implicants, the written sum holds at an `n`-variable value exactly when a selected prime covers it |
| Minimize.CoverExact | src/quine_mccluskey.c:164-245 | a selection of implicants covering all minterms covers exactly the minterms |
| Minimize.Minimize | src/quine_mccluskey.c:151-273 | for `1 <= n <= 16` and `n`-variable minterms: the primes are the list the reference run leaves, duplicate free and ordered by rank, and are exactly the prime implicants; the selection is the one the greedy loop leaves from the essential primes, the essential ones are selected, and no more primes than distinct minterms; the text is exactly the selected primes' parenthesized products joined by ` + `, reads back as their literals, and holds at an `n`-variable value exactly when that value is a minterm |

## Left out

- Terminal I/O: `read_input` and `main` in `src/main.c` are not modelled. `Minimize` instead requires what they establish: `1 <= num_vars <= 16` and every minterm below `2^num_vars`.
- The non-empty minterm list checked by `main`: the core does not need it, so it is not required.
- Memory management is not modelled: `malloc`, `realloc`, `free`, capacity doubling, and the `perror`/`exit` paths. Growable arrays are sequences here.
- The banner and echo `printf`s (lines 247-262), the `F = ` prefix and the final newline are not modelled. They restate the input.
- The `combined` field of `term_t`: it is kept as a per-round `seq<bool>` beside the round's terms, not inside the record.
- C `int` width and signedness: these do not matter under the 16-variable bound, so bit values are unbounded naturals.
- Output encoding: characters are Unicode scalar values. The `⋅` the C program writes as three UTF-8 bytes is one character here.
- Selection.CountCovers: the exact `count` is stated only as zero, one or more than one, since that is all line 195 uses.

=== FILE: bits.dfy ===
/**
 * Bit-level vocabulary for the `int` fields of a term.
 *
 * The C program keeps `bits` and `mask` in `int`s, but every value it
 * handles is non-negative and below 2^16 (at most 16 variables), so its
 * bitwise operators never see a sign bit.  They are modelled here on `nat`
 * by recursion on the lowest bit: `And`, `Or` and `Xor` are the C program's
 * `&`, `|` and `^`, and `Clear(x, m)` is the C program's `x & ~m`, which on
 * non-negative operands clears the bits of `m` from `x`.
 *
 * `Bit(x, i)` reads bit `i`; the lemmas below give each operator its
 * position-by-position meaning, and `Extensional` turns agreement at every
 * position back into equality.
 */
module Bits {

  /** `2^i`, the C program's `1 << i`. */
  function Pow2(i: nat): (r: nat)
    ensures r > 0
  {
    if i == 0 then 1 else 2 * Pow2(i - 1)
  }

  /** Bit `i` of `x`. */
  predicate Bit(x: nat, i: nat) {
    if i == 0 then x % 2 == 1 else Bit(x / 2, i - 1)
  }

  /** The C program's `x & y`. */
  function And(x: nat, y: nat): (r: nat) {
    if x == 0 || y == 0 then 0
    else 2 * And(x / 2, y / 2) + (if x % 2 == 1 && y % 2 == 1 then 1 else 0)
  }

  /** The C program's `x | y`. */
  function Or(x: nat, y: nat): (r: nat) {
    if x == 0 then y
    else if y == 0 then x
    else 2 * Or(x / 2, y / 2) + (if x % 2 == 1 || y % 2 == 1 then 1 else 0)
  }

  /** The C program's `x ^ y`. */
  function Xor(x: nat, y: nat): (r: nat) {
    if x == 0 then y
    else if y == 0 then x
    else 2 * Xor(x / 2, y / 2) + (if x % 2 != y % 2 then 1 else 0)
  }

  /** The C program's `x & ~m` for non-negative `x` and `m`. */
  function Clear(x: nat, m: nat): (r: nat) {
    if x == 0 then 0
    else if m == 0 then x
    else 2 * Clear(x / 2, m / 2) + (if x % 2 == 1 && m % 2 == 0 then 1 else 0)
  }

  /** Number of set bits. */
  function Pop(x: nat): (r: nat) {
    if x == 0 then 0 else Pop(x / 2) + x % 2
  }

  /** `x` is below `2^n`: it is an `n`-variable value. */
  predicate Fits(x: nat, n: nat) {
    x < Pow2(n)
  }

  /** No bit at position `n` or above is set. */
  ghost predicate NoBitFrom(x: nat, n: nat) {
    forall i: nat :: n <= i ==> !Bit(x, i)
  }

  /** The test the combination step applies to the xor of two terms' bits:
      nonzero, and clearing its lowest set bit leaves nothing
      (`diff && (diff & (diff - 1)) == 0`). */
  predicate SingleBit(d: nat) {
    d != 0 && And(d, d - 1) == 0
  }

  /** The lowest bit and the rest of `2q + b`. */
  lemma Halve(q: nat, b: nat)
    requires b < 2
    ensures (2 * q + b) / 2 == q && (2 * q + b) % 2 == b
  {
  }

  // Each operator, split into its lowest bit and the rest.

  lemma AndHalves(x: nat, y: nat)
    ensures And(x, y) / 2 == And(x / 2, y / 2)
    ensures And(x, y) % 2 == (if x % 2 == 1 && y % 2 == 1 then 1 else 0)
  {
    if x != 0 && y != 0 {
      Halve(And(x / 2, y / 2), if x % 2 == 1 && y % 2 == 1 then 1 else 0);
    }
  }

  lemma OrHalves(x: nat, y: nat)
    ensures Or(x, y) / 2 == Or(x / 2, y / 2)
    ensures Or(x, y) % 2 == (if x % 2 == 1 || y % 2 == 1 then 1 else 0)
  {
    if x != 0 && y != 0 {
      Halve(Or(x / 2, y / 2), if x % 2 == 1 || y % 2 == 1 then 1 else 0);
    }
  }

  lemma XorHalves(x: nat, y: nat)
    ensures Xor(x, y) / 2 == Xor(x / 2, y / 2)
    ensures Xor(x, y) % 2 == (if x % 2 != y % 2 then 1 else 0)
  {
    if x != 0 && y != 0 {
      Halve(Xor(x / 2, y / 2), if x % 2 != y % 2 then 1 else 0);
    }
  }

  lemma ClearHalves(x: nat, m: nat)
    ensures Clear(x, m) / 2 == Clear(x / 2, m / 2)
    ensures Clear(x, m) % 2 == (if x % 2 == 1 && m % 2 == 0 then 1 else 0)
  {
    if x != 0 && m != 0 {
      Halve(Clear(x / 2, m / 2), if x % 2 == 1 && m % 2 == 0 then 1 else 0);
    }
  }

  // ---------------------------------------------------------------------
  // Position-by-position meaning of the operators
  // ---------------------------------------------------------------------

  lemma {:induction false} ZeroBit(i: nat)
    ensures !Bit(0, i)
    decreases i
  {
    if i > 0 {
      ZeroBit(i - 1);
    }
  }

  lemma {:induction false} BitAnd(x: nat, y: nat, i: nat)
    ensures Bit(And(x, y), i) == (Bit(x, i) && Bit(y, i))
    decreases i
  {
    AndHalves(x, y);
    if i > 0 {
      BitAnd(x / 2, y / 2, i - 1);
    }
  }

  lemma {:induction false} BitOr(x: nat, y: nat, i: nat)
    ensures Bit(Or(x, y), i) == (Bit(x, i) || Bit(y, i))
    decreases i
  {
    OrHalves(x, y);
    if i > 0 {
      BitOr(x / 2, y / 2, i - 1);
    }
  }

  lemma {:induction false} BitXor(x: nat, y: nat, i: nat)
    ensures Bit(Xor(x, y), i) == (Bit(x, i) != Bit(y, i))
    decreases i
  {
    XorHalves(x, y);
    if i > 0 {
      BitXor(x / 2, y / 2, i - 1);
    }
  }

  lemma {:induction false} BitClear(x: nat, m: nat, i: nat)
    ensures Bit(Clear(x, m), i) == (Bit(x, i) && !Bit(m, i))
    decreases i
  {
    ClearHalves(x, m);
    if i > 0 {
      BitClear(x / 2, m / 2, i - 1);
    }
  }

  /** `2^j` has exactly bit `j` set. */
  lemma {:induction false} BitPow2(j: nat, i: nat)
    ensures Bit(Pow2(j), i) == (i == j)
    decreases j
  {
    if j == 0 {
      if i > 0 {
        ZeroBit(i - 1);
      }
    } else if i > 0 {
      BitPow2(j - 1, i - 1);
    }
  }

  /** Two values with the same bits are equal. */
  lemma {:induction false} Extensional(x: nat, y: nat)
    requires forall i: nat :: Bit(x, i) == Bit(y, i)
    ensures x == y
    decreases x + y
  {
    assert Bit(x, 0) == Bit(y, 0);
    if x != 0 || y != 0 {
      forall i: nat
        ensures Bit(x / 2, i) == Bit(y / 2, i)
      {
        assert Bit(x, i + 1) == Bit(y, i + 1);
      }
      Extensional(x / 2, y / 2);
    }
  }

  /** A nonzero value has a set bit. */
  lemma {:induction false} SomeBit(x: nat) returns (p: nat)
    requires x != 0
    ensures Bit(x, p)
    decreases x
  {
    if x % 2 == 1 {
      p := 0;
    } else {
      var q := SomeBit(x / 2);
      p := q + 1;
    }
  }

  /** `x & y == 0` exactly when no position is set in both. */
  lemma Disjoint(x: nat, y: nat)
    ensures And(x, y) == 0 <==> forall i: nat :: !(Bit(x, i) && Bit(y, i))
  {
    if And(x, y) != 0 {
      var p := SomeBit(And(x, y));
      BitAnd(x, y, p);
    } else {
      forall i: nat ensures !(Bit(x, i) && Bit(y, i)) {
        BitAnd(x, y, i);
        ZeroBit(i);
      }
    }
  }

  /** The C program's `x & (1 << i)` is nonzero exactly when bit `i` of `x`
      is set. */
  lemma AndPow2(x: nat, i: nat)
    ensures (And(x, Pow2(i)) != 0) == Bit(x, i)
  {
    if Bit(x, i) {
      BitAnd(x, Pow2(i), i);
      BitPow2(i, i);
      ZeroBit(i);
    } else {
      forall k: nat ensures Bit(And(x, Pow2(i)), k) == Bit(0, k) {
        BitAnd(x, Pow2(i), k);
        BitPow2(i, k);
        ZeroBit(k);
      }
      Extensional(And(x, Pow2(i)), 0);
    }
  }

  /** The C test `x & (1 << i)`: whether bit `i` of `x` is set. */
  method TestBit(x: nat, i: nat) returns (isSet: bool)
    ensures isSet == Bit(x, i)
  {
    AndPow2(x, i);
    isSet := And(x, Pow2(i)) != 0;
  }


  lemma {:induction false} XorSelf(x: nat)
    ensures Xor(x, x) == 0
    decreases x
  {
    if x != 0 {
      XorSelf(x / 2);
    }
  }

  lemma AndCommutes(x: nat, y: nat)
    ensures And(x, y) == And(y, x)
  {
    forall i: nat ensures Bit(And(x, y), i) == Bit(And(y, x), i) {
      BitAnd(x, y, i);
      BitAnd(y, x, i);
    }
    Extensional(And(x, y), And(y, x));
  }

  lemma XorCommutes(x: nat, y: nat)
    ensures Xor(x, y) == Xor(y, x)
  {
    forall i: nat ensures Bit(Xor(x, y), i) == Bit(Xor(y, x), i) {
      BitXor(x, y, i);
      BitXor(y, x, i);
    }
    Extensional(Xor(x, y), Xor(y, x));
  }

  // ---------------------------------------------------------------------
  // Values below 2^n
  // ---------------------------------------------------------------------

  lemma {:induction false} FitsHigh(x: nat, n: nat, i: nat)
    requires Fits(x, n) && n <= i
    ensures !Bit(x, i)
    decreases n
  {
    if n == 0 {
      ZeroBit(i);
    } else {
      FitsHigh(x / 2, n - 1, i - 1);
    }
  }

  lemma {:induction false} HighFits(x: nat, n: nat)
    requires NoBitFrom(x, n)
    ensures Fits(x, n)
    decreases n
  {
    if n == 0 {
      forall i: nat ensures Bit(x, i) == Bit(0, i) {
        ZeroBit(i);
      }
      Extensional(x, 0);
    } else {
      forall i: nat | n - 1 <= i
        ensures !Bit(x / 2, i)
      {
        assert !Bit(x, i + 1);
      }
      HighFits(x / 2, n - 1);
    }
  }

  /** `x < 2^n` exactly when no bit at position `n` or above is set. */
  lemma FitsBits(x: nat, n: nat)
    ensures Fits(x, n) <==> NoBitFrom(x, n)
  {
    if Fits(x, n) {
      forall i: nat | n <= i ensures !Bit(x, i) {
        FitsHigh(x, n, i);
      }
    } else if NoBitFrom(x, n) {
      HighFits(x, n);
    }
  }

  lemma {:induction false} Pow2Above(x: nat)
    ensures x < Pow2(x)
    decreases x
  {
    if x > 0 {
      Pow2Above(x - 1);
    }
  }

  lemma {:induction false} Pow2Monotone(a: nat, b: nat)
    requires a <= b
    ensures Pow2(a) <= Pow2(b)
    decreases b
  {
    if a < b {
      Pow2Monotone(a, b - 1);
    }
  }

  /** The parts of an `n`-variable `x | y` are `n`-variable. */
  lemma FitsOrParts(x: nat, y: nat, n: nat)
    requires Fits(Or(x, y), n)
    ensures Fits(x, n) && Fits(y, n)
  {
    FitsBits(Or(x, y), n);
    forall i: nat | n <= i
      ensures !Bit(x, i) && !Bit(y, i)
    {
      BitOr(x, y, i);
    }
    FitsBits(x, n);
    FitsBits(y, n);
  }

  // ---------------------------------------------------------------------
  // The single-bit test
  // ---------------------------------------------------------------------

  lemma {:induction false} AndSelf(x: nat)
    ensures And(x, x) == x
    decreases x
  {
    if x != 0 {
      AndSelf(x / 2);
    }
  }

  lemma {:induction false} SingleBitPosition(d: nat) returns (p: nat)
    requires SingleBit(d)
    ensures d == Pow2(p)
    decreases d
  {
    if d % 2 == 0 {
      assert (d - 1) / 2 == d / 2 - 1;
      var q := SingleBitPosition(d / 2);
      p := q + 1;
    } else {
      if d != 1 {
        assert (d - 1) / 2 == d / 2;
        AndSelf(d / 2);
        assert false;
      }
      p := 0;
    }
  }

  lemma {:induction false} Pow2SingleBit(p: nat)
    ensures SingleBit(Pow2(p))
    decreases p
  {
    if p > 0 {
      Pow2SingleBit(p - 1);
      assert (Pow2(p) - 1) / 2 == Pow2(p - 1) - 1;
    }
  }

  /** The C program's `diff && (diff & (diff - 1)) == 0` holds exactly for the
      powers of two. */
  lemma SingleBitIsPow2(d: nat)
    ensures SingleBit(d) <==> exists p: nat :: d == Pow2(p)
  {
    if SingleBit(d) {
      var p := SingleBitPosition(d);
    }
    if exists p: nat :: d == Pow2(p) {
      var p: nat :| d == Pow2(p);
      Pow2SingleBit(p);
    }
  }

  // ---------------------------------------------------------------------
  // Counting set bits
  // ---------------------------------------------------------------------

  lemma {:induction false} PopPow2(p: nat)
    ensures Pop(Pow2(p)) == 1
    decreases p
  {
    if p > 0 {
      PopPow2(p - 1);
    }
  }

  /** Or-ing two values with no common bit adds their counts. */
  lemma {:induction false} PopOr(x: nat, y: nat)
    requires And(x, y) == 0
    ensures Pop(Or(x, y)) == Pop(x) + Pop(y)
    decreases x + y
  {
    if x != 0 && y != 0 {
      AndHalves(x, y);
      OrHalves(x, y);
      PopOr(x / 2, y / 2);
    }
  }

  /** Only zero has no set bit. */
  lemma {:induction false} PopZero(x: nat)
    ensures Pop(x) == 0 <==> x == 0
    decreases x
  {
    if x != 0 && x % 2 == 0 {
      PopZero(x / 2);
    }
  }

  /** An `n`-variable value has at most `n` set bits. */
  lemma {:induction false} PopBound(x: nat, n: nat)
    requires Fits(x, n)
    ensures Pop(x) <= n
    decreases n
  {
    if n > 0 {
      PopBound(x / 2, n - 1);
    }
  }

  /** Setting one clear bit adds exactly one to the count. */
  lemma PopAddBit(m: nat, p: nat)
    requires !Bit(m, p)
    ensures Pop(Or(m, Pow2(p))) == Pop(m) + 1
  {
    forall i: nat ensures !(Bit(m, i) && Bit(Pow2(p), i)) {
      BitPow2(p, i);
    }
    Disjoint(m, Pow2(p));
    PopOr(m, Pow2(p));
    PopPow2(p);
  }

  /** Removing a set bit and putting it back gives the value again. */
  lemma ClearThenSet(m: nat, p: nat)
    requires Bit(m, p)
    ensures Or(Clear(m, Pow2(p)), Pow2(p)) == m
    ensures !Bit(Clear(m, Pow2(p)), p)
  {
    var c := Clear(m, Pow2(p));
    forall i: nat ensures Bit(Or(c, Pow2(p)), i) == Bit(m, i) {
      BitOr(c, Pow2(p), i);
      BitClear(m, Pow2(p), i);
      BitPow2(p, i);
    }
    Extensional(Or(c, Pow2(p)), m);
    BitClear(m, Pow2(p), p);
    BitPow2(p, p);
  }
}

=== FILE: generation.dfy ===
/**
 * Prime-implicant generation (`compute_prime_implicants`).
 *
 * Round 0 holds one term per minterm.  Each round compares every pair of
 * its terms, collects the merges of the combinable pairs (without
 * duplicates) as the next round, and moves every term that took part in no
 * merge to the prime list (again without duplicates).  The rounds stop
 * when one comes out empty.
 *
 * The main results: round `k` holds exactly the well-formed implicants
 * with `k` masked positions, so the prime list holds exactly the prime
 * implicants, every minterm is covered by one of them, and there are at
 * most `n + 1` rounds for `n`-variable minterms.
 */
module Generation {
  import opened Bits
  import opened Terms
  import opened TermLists

  /** A term the method may produce: well formed, and covering nothing but
      minterms. */
  ghost predicate Candidate(t: Term, minterms: seq<nat>) {
    WellFormed(t) && Implicant(t, minterms)
  }

  /** A prime implicant: a candidate that no candidate combines with. */
  ghost predicate Prime(t: Term, minterms: seq<nat>) {
    Candidate(t, minterms) &&
    forall u: Term :: Candidate(u, minterms) ==> !Combinable(t, u)
  }

  /** `cur` holds exactly the candidates with `k` masked positions. */
  ghost predicate IsRound(cur: seq<Term>, minterms: seq<nat>, k: nat) {
    forall t :: t in cur <==> Candidate(t, minterms) && Rank(t) == k
  }

  /** Every minterm is an `n`-variable value. */
  ghost predicate AllFit(minterms: seq<nat>, n: nat) {
    forall m :: m in minterms ==> Fits(m, n)
  }

  // ---------------------------------------------------------------------
  // Bookkeeping for the pair scan of one round
  // ---------------------------------------------------------------------

  /** The pair `(a, b)` comes before `(i, j)` in the order of the nested
      loops at lines 79-80. */
  predicate Before(a: int, b: int, i: int, j: int) {
    a < i || (a == i && b < j)
  }

  /** `cur[a]` and `cur[b]`, `a < b`, pass the combination test. */
  ghost predicate Merges(cur: seq<Term>, a: int, b: int) {
    0 <= a < b < |cur| && Combinable(cur[a], cur[b])
  }

  /** A pair scanned before `(i, j)` merges `cur[k]` with another term. */
  ghost predicate PairedBefore(cur: seq<Term>, k: int, i: int, j: int) {
    exists a, b :: Merges(cur, a, b) && Before(a, b, i, j) && (k == a || k == b)
  }

  /** A pair scanned before `(i, j)` merges into `t`. */
  ghost predicate ProducedBefore(cur: seq<Term>, t: Term, i: int, j: int) {
    exists a, b :: Merges(cur, a, b) && Before(a, b, i, j) && t == Combine(cur[a], cur[b])
  }

  /** The merges of the pairs `(i, b)`, `i < b < j`, in scan order. */
  ghost function RowMerges(cur: seq<Term>, i: nat, j: nat): (ts: seq<Term>)
    requires i < |cur| && j <= |cur|
    decreases j
  {
    if j <= i + 1 then []
    else
      RowMerges(cur, i, j - 1) +
      (if Merges(cur, i, j - 1) then [Combine(cur[i], cur[j - 1])] else [])
  }

  /** The merges of the pairs of the rows `a < i`, in scan order. */
  ghost function ScanMerges(cur: seq<Term>, i: nat): (ts: seq<Term>)
    requires i <= |cur|
  {
    if i == 0 then [] else ScanMerges(cur, i - 1) + RowMerges(cur, i - 1, |cur|)
  }

  /** The merges of the pairs scanned before `(i, j)`, in scan order. */
  ghost function ScanUpTo(cur: seq<Term>, i: nat, j: nat): (ts: seq<Term>)
    requires i < |cur| && j <= |cur|
  {
    ScanMerges(cur, i) + RowMerges(cur, i, j)
  }

  lemma ScanStep(cur: seq<Term>, i: int, j: int)
    requires 0 <= i < j < |cur|
    ensures forall k :: PairedBefore(cur, k, i, j + 1) <==>
      PairedBefore(cur, k, i, j) || (Merges(cur, i, j) && (k == i || k == j))
    ensures forall t :: ProducedBefore(cur, t, i, j + 1) <==>
      ProducedBefore(cur, t, i, j) || (Merges(cur, i, j) && t == Combine(cur[i], cur[j]))
  {
    forall k
      ensures PairedBefore(cur, k, i, j + 1) <==>
        PairedBefore(cur, k, i, j) || (Merges(cur, i, j) && (k == i || k == j))
    {
      if PairedBefore(cur, k, i, j + 1) {
        var a, b :| Merges(cur, a, b) && Before(a, b, i, j + 1) && (k == a || k == b);
        if a != i || b != j {
          assert Before(a, b, i, j);
        }
      }
      if PairedBefore(cur, k, i, j) {
        var a, b :| Merges(cur, a, b) && Before(a, b, i, j) && (k == a || k == b);
        assert Before(a, b, i, j + 1);
      }
      if Merges(cur, i, j) && (k == i || k == j) {
        assert Before(i, j, i, j + 1);
      }
    }
    forall t
      ensures ProducedBefore(cur, t, i, j + 1) <==>
        ProducedBefore(cur, t, i, j) || (Merges(cur, i, j) && t == Combine(cur[i], cur[j]))
    {
      if ProducedBefore(cur, t, i, j + 1) {
        var a, b :| Merges(cur, a, b) && Before(a, b, i, j + 1) && t == Combine(cur[a], cur[b]);
        if a != i || b != j {
          assert Before(a, b, i, j);
        }
      }
      if ProducedBefore(cur, t, i, j) {
        var a, b :| Merges(cur, a, b) && Before(a, b, i, j) && t == Combine(cur[a], cur[b]);
        assert Before(a, b, i, j + 1);
      }
      if Merges(cur, i, j) && t == Combine(cur[i], cur[j]) {
        assert Before(i, j, i, j + 1);
      }
    }
  }

  /** Finishing the inner loop for `i` is starting the inner loop for
      `i + 1`. */
  lemma RowEnd(cur: seq<Term>, i: int)
    requires 0 <= i < |cur|
    ensures forall k :: PairedBefore(cur, k, i, |cur|) <==> PairedBefore(cur, k, i + 1, i + 2)
    ensures forall t :: ProducedBefore(cur, t, i, |cur|) <==> ProducedBefore(cur, t, i + 1, i + 2)
  {
    forall a, b | 0 <= a < b < |cur|
      ensures Before(a, b, i, |cur|) <==> Before(a, b, i + 1, i + 2)
    {
    }
  }

  /** After the whole scan: `cur[k]` was merged exactly when some term of the
      round combines with it, and the merges are the combinations of the
      combinable pairs. */
  lemma ScanComplete(cur: seq<Term>, i: int, j: int)
    requires i == |cur| && j == i + 1
    ensures forall k :: 0 <= k < |cur| ==>
      (PairedBefore(cur, k, i, j) <==> exists l :: 0 <= l < |cur| && Combinable(cur[k], cur[l]))
    ensures forall t :: ProducedBefore(cur, t, i, j) <==>
      exists a, b :: Merges(cur, a, b) && t == Combine(cur[a], cur[b])
  {
    forall k | 0 <= k < i
      ensures PairedBefore(cur, k, i, j) <==>
        exists l :: 0 <= l < i && Combinable(cur[k], cur[l])
    {
      if PairedBefore(cur, k, i, j) {
        var a, b :| Merges(cur, a, b) && Before(a, b, i, j) && (k == a || k == b);
        CombineSymmetric(cur[a], cur[b]);
        if k == a {
          assert Combinable(cur[k], cur[b]);
        } else {
          assert Combinable(cur[k], cur[a]);
        }
      }
      if exists l :: 0 <= l < i && Combinable(cur[k], cur[l]) {
        var l :| 0 <= l < i && Combinable(cur[k], cur[l]);
        CombineSymmetric(cur[k], cur[l]);
        XorSelf(cur[k].bits);
        if k < l {
          assert Merges(cur, k, l) && Before(k, l, i, j);
        } else {
          assert Merges(cur, l, k) && Before(l, k, i, j);
        }
      }
    }
    forall t
      ensures ProducedBefore(cur, t, i, j) <==>
        exists a, b :: Merges(cur, a, b) && t == Combine(cur[a], cur[b])
    {
      if exists a, b :: Merges(cur, a, b) && t == Combine(cur[a], cur[b]) {
        var a, b :| Merges(cur, a, b) && t == Combine(cur[a], cur[b]);
        assert Before(a, b, i, j);
      }
    }
  }

  // ---------------------------------------------------------------------
  // One round
  // ---------------------------------------------------------------------

  /** The order of the next round after one more pair: its merge, if any,
      goes to the end unless it is already there. */
  lemma MergeOrderStep(cur: seq<Term>, i: nat, j: nat, next0: seq<Term>, next: seq<Term>)
    requires i < j < |cur|
    requires next0 == AppendNew([], ScanUpTo(cur, i, j))
    requires next == if Merges(cur, i, j) then AppendNew(next0, [Combine(cur[i], cur[j])]) else next0
    ensures next == AppendNew([], ScanUpTo(cur, i, j + 1))
  {
    var before := ScanUpTo(cur, i, j);
    if Merges(cur, i, j) {
      assert ScanUpTo(cur, i, j + 1) == before + [Combine(cur[i], cur[j])];
      AppendNewSnoc([], before, Combine(cur[i], cur[j]));
    } else {
      assert ScanUpTo(cur, i, j + 1) == before;
    }
  }

  /** The merges scanned before `(i, j)` are those of the merging pairs
      before `(i, j)`. */
  lemma {:induction false} ScanUpToMembers(cur: seq<Term>, i: nat, j: nat)
    requires i < j <= |cur|
    ensures forall t :: t in ScanUpTo(cur, i, j) <==> ProducedBefore(cur, t, i, j)
    decreases i, j
  {
    if j > i + 1 {
      ScanUpToMembers(cur, i, j - 1);
      ScanStep(cur, i, j - 1);
      assert ScanUpTo(cur, i, j) == ScanUpTo(cur, i, j - 1) +
        (if Merges(cur, i, j - 1) then [Combine(cur[i], cur[j - 1])] else []);
    } else {
      RowOrder(cur, i);
      ScanMergesMembers(cur, i);
    }
  }

  /** The merges of the rows before `i` are those of the merging pairs
      before `(i, i + 1)`. */
  lemma {:induction false} ScanMergesMembers(cur: seq<Term>, i: nat)
    requires i <= |cur|
    ensures forall t :: t in ScanMerges(cur, i) <==> ProducedBefore(cur, t, i, i + 1)
    decreases i, 0
  {
    if i > 0 {
      RowOrder(cur, i - 1);
      ScanUpToMembers(cur, i - 1, |cur|);
      RowEnd(cur, i - 1);
    } else {
      forall t ensures !ProducedBefore(cur, t, 0, 1) {
        forall a, b | Merges(cur, a, b) ensures !Before(a, b, 0, 1) {
        }
      }
    }
  }

  /** Lines 81-90 for one pair `i < j`: if the masks are equal and the
      bits differ in one position, mark both terms and add their merge
      unless it is already there. */
  method PairStep(cur: seq<Term>, i: int, j: int, next0: seq<Term>, combined0: seq<bool>)
    returns (next: seq<Term>, combined: seq<bool>)
    requires 0 <= i < j < |cur| && |combined0| == |cur|
    ensures Merges(cur, i, j) ==>
      combined == combined0[i := true][j := true] &&
      next == AppendNew(next0, [Combine(cur[i], cur[j])])
    ensures !Merges(cur, i, j) ==> combined == combined0 && next == next0
    ensures NoDup(next0) ==> NoDup(next)
    ensures forall t :: t in next <==>
      t in next0 || (Merges(cur, i, j) && t == Combine(cur[i], cur[j]))
  {
    next, combined := next0, combined0;
    if cur[i].mask == cur[j].mask {
      var diff := Xor(cur[i].bits, cur[j].bits);
      if diff != 0 && And(diff, diff - 1) == 0 {
        combined := combined[i := true][j := true];
        next := AddIfAbsent(next, Term(And(cur[i].bits, cur[j].bits), Or(cur[i].mask, diff)));
      }
    }
  }

  /** One pair step keeps the two scan invariants and the order of the
      next round. */
  /** The state of the pair scan when it reaches `(i, j)`: a term is
      flagged exactly when it was paired before, and `next` lists the
      merges so far in scan order, without repeats. */
  ghost predicate Scanning(cur: seq<Term>, i: int, j: int, next: seq<Term>, combined: seq<bool>) {
    0 <= i < j <= |cur| && |combined| == |cur| &&
    (forall k :: 0 <= k < |cur| ==> (combined[k] <==> PairedBefore(cur, k, i, j))) &&
    next == AppendNew([], ScanUpTo(cur, i, j))
  }

  method ScanPair(cur: seq<Term>, i: int, j: int, next0: seq<Term>, combined0: seq<bool>)
    returns (next: seq<Term>, combined: seq<bool>)
    requires j < |cur| && Scanning(cur, i, j, next0, combined0)
    ensures Scanning(cur, i, j + 1, next, combined)
  {
    ScanStep(cur, i, j);
    next, combined := PairStep(cur, i, j, next0, combined0);
    assert forall k :: 0 <= k < |cur| ==>
      (combined[k] <==> combined0[k] || (Merges(cur, i, j) && (k == i || k == j)));
    MergeOrderStep(cur, i, j, next0, next);
  }

  /** A row starts with no merges, and finishing it extends the scan by
      the whole row. */
  lemma RowOrder(cur: seq<Term>, i: nat)
    requires i < |cur|
    ensures ScanUpTo(cur, i, i + 1) == ScanMerges(cur, i)
    ensures ScanMerges(cur, i + 1) == ScanUpTo(cur, i, |cur|)
  {
    assert ScanMerges(cur, i) + [] == ScanMerges(cur, i);
  }

  /** Lines 80-91 for one `i`: compare `cur[i]` with every later term. */
  method ScanRow(cur: seq<Term>, i: int, next0: seq<Term>, combined0: seq<bool>)
    returns (next: seq<Term>, combined: seq<bool>)
    requires Scanning(cur, i, i + 1, next0, combined0)
    ensures Scanning(cur, i, |cur|, next, combined)
  {
    next, combined := next0, combined0;
    var j := i + 1;
    while j < |cur|
      invariant Scanning(cur, i, j, next, combined)
    {
      next, combined := ScanPair(cur, i, j, next, combined);
      j := j + 1;
    }
  }

  /** Row `i` starts where the rows before it left off. */
  lemma RowStart(cur: seq<Term>, i: int, next: seq<Term>, combined: seq<bool>)
    requires 0 <= i < |cur| && |combined| == |cur|
    requires forall k :: 0 <= k < |cur| ==> (combined[k] <==> PairedBefore(cur, k, i, i + 1))
    requires next == AppendNew([], ScanMerges(cur, i))
    ensures Scanning(cur, i, i + 1, next, combined)
  {
    RowOrder(cur, i);
  }

  /** A finished row `i` is the start of row `i + 1`. */
  lemma RowDone(cur: seq<Term>, i: int, next: seq<Term>, combined: seq<bool>)
    requires 0 <= i < |cur| && Scanning(cur, i, |cur|, next, combined)
    ensures forall k :: 0 <= k < |cur| ==> (combined[k] <==> PairedBefore(cur, k, i + 1, i + 2))
    ensures next == AppendNew([], ScanMerges(cur, i + 1))
  {
    RowOrder(cur, i);
    RowEnd(cur, i);
  }

  /** Lines 78-92: compare every pair `i < j`; a pair with equal masks whose
      bits differ in one position marks both terms as combined and adds
      their merge to the next round unless it is already there. */
  method CombineRound(cur: seq<Term>) returns (next: seq<Term>, combined: seq<bool>)
    ensures |combined| == |cur| && NoDup(next)
    ensures forall k :: 0 <= k < |cur| ==>
      (combined[k] <==> exists l :: 0 <= l < |cur| && Combinable(cur[k], cur[l]))
    ensures forall t :: t in next <==>
      exists a, b :: Merges(cur, a, b) && t == Combine(cur[a], cur[b])
    ensures next == AppendNew([], ScanMerges(cur, |cur|))
  {
    next := [];
    combined := seq(|cur|, _ => false);
    var i := 0;
    while i < |cur|
      invariant 0 <= i <= |cur|
      invariant |combined| == |cur|
      invariant forall k :: 0 <= k < |cur| ==> (combined[k] <==> PairedBefore(cur, k, i, i + 1))
      invariant next == AppendNew([], ScanMerges(cur, i))
    {
      RowStart(cur, i, next, combined);
      next, combined := ScanRow(cur, i, next, combined);
      RowDone(cur, i, next, combined);
      i := i + 1;
    }
    ScanComplete(cur, i, i + 1);
    ScanMergesMembers(cur, i);
    AppendNewMembers([], ScanMerges(cur, i));
  }

  /** The terms of the round that took part in no merge, in round order. */
  function Uncombined(cur: seq<Term>, combined: seq<bool>): (ts: seq<Term>)
    requires |combined| == |cur|
  {
    if |cur| == 0 then []
    else
      var n := |cur| - 1;
      Uncombined(cur[..n], combined[..n]) + (if combined[n] then [] else [cur[n]])
  }

  /** Taking one more term of the round into account. */
  lemma UncombinedStep(cur: seq<Term>, combined: seq<bool>, i: nat)
    requires |combined| == |cur| && i < |cur|
    ensures Uncombined(cur[..i + 1], combined[..i + 1]) ==
      Uncombined(cur[..i], combined[..i]) + (if combined[i] then [] else [cur[i]])
  {
    assert cur[..i + 1][..i] == cur[..i];
    assert combined[..i + 1][..i] == combined[..i];
  }

  /** The prime list keeps the order in which terms arrive: by rank. */
  predicate RankOrdered(ts: seq<Term>) {
    forall i, j :: 0 <= i < j < |ts| ==> Rank(ts[i]) <= Rank(ts[j])
  }

  /** Lines 95-99 for one `i`: append `cur[i]` to the prime list when it
      took part in no merge and is not already there. */
  /** `t` is one of the first `i` terms of the round and was not combined. */
  ghost predicate LeftOver(cur: seq<Term>, combined: seq<bool>, t: Term, i: int)
    requires |combined| == |cur| && i <= |cur|
  {
    exists k :: 0 <= k < i && !combined[k] && cur[k] == t
  }

  /** The terms left over among the first `i + 1` are those among the
      first `i` and `cur[i]` if it was not combined. */
  lemma LeftOverStep(cur: seq<Term>, combined: seq<bool>, i: nat)
    requires |combined| == |cur| && i < |cur|
    ensures forall t :: LeftOver(cur, combined, t, i + 1) <==>
      LeftOver(cur, combined, t, i) || (!combined[i] && cur[i] == t)
  {
    forall t ensures LeftOver(cur, combined, t, i + 1) ==>
      LeftOver(cur, combined, t, i) || (!combined[i] && cur[i] == t)
    {
      if LeftOver(cur, combined, t, i + 1) {
        var k :| 0 <= k < i + 1 && !combined[k] && cur[k] == t;
        if k < i {
          assert LeftOver(cur, combined, t, i);
        }
      }
    }
    if !combined[i] {
      assert LeftOver(cur, combined, cur[i], i + 1);
    }
  }

  method CollectOne(cur: seq<Term>, combined: seq<bool>, primes: seq<Term>, i: nat, r0: seq<Term>)
    returns (r: seq<Term>)
    requires |combined| == |cur| && i < |cur|
    requires |primes| <= |r0| && r0[..|primes|] == primes
    requires NoDup(primes) ==> NoDup(r0)
    requires forall t :: t in r0 <==>
      t in primes || LeftOver(cur, combined, t, i)
    requires r0 == AppendNew(primes, Uncombined(cur[..i], combined[..i]))
    ensures |primes| <= |r| && r[..|primes|] == primes
    ensures NoDup(primes) ==> NoDup(r)
    ensures forall t :: t in r <==>
      t in primes || LeftOver(cur, combined, t, i + 1)
    ensures r == AppendNew(primes, Uncombined(cur[..i + 1], combined[..i + 1]))
  {
    UncombinedStep(cur, combined, i);
    LeftOverStep(cur, combined, i);
    ghost var before := Uncombined(cur[..i], combined[..i]);
    r := r0;
    if !combined[i] {
      r := AddIfAbsent(r0, cur[i]);
      assert r[..|primes|] == r[..|r0|][..|primes|];
      AppendNewSnoc(primes, before, cur[i]);
    } else {
      assert before + [] == before;
    }
  }

  /** Lines 94-100: every term of the round that took part in no merge is
      appended to the prime list, in round order, unless it is already
      there. */
  method CollectPrimes(cur: seq<Term>, combined: seq<bool>, primes: seq<Term>) returns (r: seq<Term>)
    requires |combined| == |cur|
    ensures r == AppendNew(primes, Uncombined(cur, combined))
    ensures |primes| <= |r| && r[..|primes|] == primes
    ensures NoDup(primes) ==> NoDup(r)
    ensures forall t :: t in r <==>
      t in primes || exists k :: 0 <= k < |cur| && !combined[k] && cur[k] == t
  {
    r := primes;
    var i := 0;
    while i < |cur|
      invariant 0 <= i <= |cur|
      invariant |primes| <= |r| && r[..|primes|] == primes
      invariant NoDup(primes) ==> NoDup(r)
      invariant forall t :: t in r <==>
        t in primes || LeftOver(cur, combined, t, i)
      invariant r == AppendNew(primes, Uncombined(cur[..i], combined[..i]))
    {
      r := CollectOne(cur, combined, primes, i, r);
      i := i + 1;
    }
    assert cur[..i] == cur && combined[..i] == combined;
  }

  // ---------------------------------------------------------------------
  // What the rounds contain
  // ---------------------------------------------------------------------

  /** Round 0, one term per minterm, holds the candidates with no masked
      position. */
  lemma FirstRound(cur: seq<Term>, minterms: seq<nat>)
    requires |cur| == |minterms|
    requires forall k :: 0 <= k < |cur| ==> cur[k] == Minterm(minterms[k])
    ensures IsRound(cur, minterms, 0)
  {
    forall t
      ensures t in cur <==> Candidate(t, minterms) && Rank(t) == 0
    {
      if t in cur {
        var k :| 0 <= k < |cur| && cur[k] == t;
        forall x: nat ensures Covers(t, x) ==> x in minterms {
          MintermCovers(minterms[k], x);
        }
        MintermCovers(minterms[k], 0);
      }
      if Candidate(t, minterms) && Rank(t) == 0 {
        PopZero(t.mask);
        CoversCorners(t);
        var k :| 0 <= k < |minterms| && minterms[k] == t.bits;
        assert cur[k] == t;
      }
    }
  }

  /** The merges of the combinable pairs of round `k` are round `k + 1`. */
  lemma NextRound(cur: seq<Term>, next: seq<Term>, minterms: seq<nat>, k: nat)
    requires IsRound(cur, minterms, k)
    requires forall t :: t in next <==>
      exists a, b :: Merges(cur, a, b) && t == Combine(cur[a], cur[b])
    ensures IsRound(next, minterms, k + 1)
  {
    forall t
      ensures t in next <==> Candidate(t, minterms) && Rank(t) == k + 1
    {
      if t in next {
        var a, b :| Merges(cur, a, b) && t == Combine(cur[a], cur[b]);
        assert cur[a] in cur && cur[b] in cur;
        CombineShape(cur[a], cur[b]);
        forall x: nat | Covers(t, x) ensures x in minterms {
          CombineCovers(cur[a], cur[b], x);
        }
      }
      if Candidate(t, minterms) && Rank(t) == k + 1 {
        var a, b := Split(t);
        assert a in cur && b in cur;
        var ia :| 0 <= ia < |cur| && cur[ia] == a;
        var ib :| 0 <= ib < |cur| && cur[ib] == b;
        XorSelf(a.bits);
        CombineSymmetric(a, b);
        if ia < ib {
          assert Merges(cur, ia, ib);
        } else {
          assert Merges(cur, ib, ia);
        }
      }
    }
  }

  /** The terms of round `k` that combine with nothing in the round are
      exactly the prime implicants with `k` masked positions. */
  lemma RoundPrimes(cur: seq<Term>, combined: seq<bool>, minterms: seq<nat>, k: nat)
    requires IsRound(cur, minterms, k) && |combined| == |cur|
    requires forall i :: 0 <= i < |cur| ==>
      (combined[i] <==> exists l :: 0 <= l < |cur| && Combinable(cur[i], cur[l]))
    ensures forall t :: (exists i :: 0 <= i < |cur| && !combined[i] && cur[i] == t) <==>
      Prime(t, minterms) && Rank(t) == k
  {
    forall t
      ensures (exists i :: 0 <= i < |cur| && !combined[i] && cur[i] == t) <==>
        Prime(t, minterms) && Rank(t) == k
    {
      if exists i :: 0 <= i < |cur| && !combined[i] && cur[i] == t {
        var i :| 0 <= i < |cur| && !combined[i] && cur[i] == t;
        assert cur[i] in cur;
        forall u: Term | Candidate(u, minterms)
          ensures !Combinable(t, u)
        {
          if Combinable(t, u) {
            assert false;
          }
        }
      }
      if Prime(t, minterms) && Rank(t) == k {
        assert t in cur;
        var i :| 0 <= i < |cur| && cur[i] == t;
        forall l | 0 <= l < |cur| ensures !Combinable(t, cur[l]) {
          assert cur[l] in cur;
        }
      }
    }
  }

  /** A candidate's rank is at most the number of variables. */
  lemma RankBound(t: Term, minterms: seq<nat>)
    requires Candidate(t, minterms)
    ensures forall n: nat :: AllFit(minterms, n) ==> Rank(t) <= n
  {
    forall n: nat | AllFit(minterms, n) ensures Rank(t) <= n {
      ImplicantFits(t, minterms, n);
      PopBound(t.mask, n);
    }
  }

  /** Below every candidate of rank `r` there is one of each rank `k <= r`. */
  lemma {:induction false} RankDown(t: Term, minterms: seq<nat>, k: nat) returns (u: Term)
    requires Candidate(t, minterms) && k <= Rank(t)
    ensures Candidate(u, minterms) && Rank(u) == k
    decreases Rank(t)
  {
    if Rank(t) == k {
      u := t;
    } else {
      var a, b := Split(t);
      u := RankDown(a, minterms, k);
    }
  }

  /** Every candidate is covered by a prime implicant. */
  lemma {:induction false} AbovePrime(t: Term, minterms: seq<nat>, w: nat) returns (p: Term)
    requires Candidate(t, minterms) && AllFit(minterms, w)
    ensures Prime(p, minterms)
    ensures forall x: nat :: Covers(t, x) ==> Covers(p, x)
    decreases w - Rank(t)
  {
    RankBound(t, minterms);
    if Prime(t, minterms) {
      p := t;
    } else {
      var u: Term :| Candidate(u, minterms) && Combinable(t, u);
      var c := Combine(t, u);
      CombineShape(t, u);
      forall x: nat
        ensures Covers(c, x) <==> Covers(t, x) || Covers(u, x)
      {
        CombineCovers(t, u, x);
      }
      RankBound(c, minterms);
      p := AbovePrime(c, minterms, w);
    }
  }

  /** Some `w` for which all minterms are `w`-variable values. */
  lemma {:induction false} SomeWidth(minterms: seq<nat>) returns (w: nat)
    ensures AllFit(minterms, w)
    decreases |minterms|
  {
    if |minterms| == 0 {
      w := 0;
    } else {
      var v := SomeWidth(minterms[1..]);
      var m := minterms[0];
      w := if v < m then m else v;
      Pow2Above(m);
      Pow2Monotone(m, w);
      Pow2Monotone(v, w);
      forall x | x in minterms ensures Fits(x, w) {
        if x != m {
          assert x in minterms[1..];
        }
      }
    }
  }

  /** Appending the primes of round `k` after those of earlier rounds keeps
      the list ordered by rank. */
  lemma OrderedAppend(primes: seq<Term>, r: seq<Term>, cur: seq<Term>, combined: seq<bool>, k: nat)
    requires |combined| == |cur| && RankOrdered(primes)
    requires forall t :: t in primes ==> Rank(t) < k
    requires forall t :: t in cur ==> Rank(t) == k
    requires |primes| <= |r| && r[..|primes|] == primes && NoDup(r)
    requires forall t :: t in r <==>
      t in primes || exists l :: 0 <= l < |cur| && !combined[l] && cur[l] == t
    ensures RankOrdered(r)
  {
    forall j | |primes| <= j < |r|
      ensures Rank(r[j]) == k
    {
      assert r[j] in r;
      var l :| 0 <= l < |cur| && !combined[l] && cur[l] == r[j];
      assert cur[l] in cur;
    }
    forall i | 0 <= i < |r|
      ensures Rank(r[i]) <= k
    {
      if i < |primes| {
        assert r[i] == primes[i] && primes[i] in primes;
      }
    }
    forall i, j | 0 <= i < j < |r|
      ensures Rank(r[i]) <= Rank(r[j])
    {
      if j < |primes| {
        assert r[i] == primes[i] && r[j] == primes[j];
      }
    }
  }

  // ---------------------------------------------------------------------
  // The whole generation
  // ---------------------------------------------------------------------

  /** Round 0: one term per minterm, in minterm order (lines 61-63). */
  function FirstTerms(minterms: seq<nat>): (cur: seq<Term>) {
    seq(|minterms|, k requires 0 <= k < |minterms| => Minterm(minterms[k]))
  }

  /** The `combined` flags a round ends with: set for exactly the terms
      that combine with some term of the round. */
  ghost function CombinedFlags(cur: seq<Term>): (flags: seq<bool>) {
    seq(|cur|, k requires 0 <= k < |cur| =>
      exists l :: 0 <= l < |cur| && Combinable(cur[k], cur[l]))
  }

  /** One pass of the round loop (lines 71-106): the next round is the
      merges of `cur` in scan order, without duplicates, and the
      uncombined terms of `cur` join the prime list in round order,
      skipping those already present. */
  ghost predicate RoundStep(cur: seq<Term>, primes: seq<Term>, next: seq<Term>, primes': seq<Term>) {
    next == AppendNew([], ScanMerges(cur, |cur|)) &&
    primes' == AppendNew(primes, Uncombined(cur, CombinedFlags(cur)))
  }

  /** `rounds[k]` is round `k` and `lists[k]` the prime list before it,
      starting from one term per minterm and an empty list. */
  ghost predicate Trace(minterms: seq<nat>, rounds: seq<seq<Term>>, lists: seq<seq<Term>>) {
    |rounds| == |lists| > 0 && rounds[0] == FirstTerms(minterms) && lists[0] == [] &&
    forall k :: 0 <= k < |rounds| - 1 ==>
      RoundStep(rounds[k], lists[k], rounds[k + 1], lists[k + 1])
  }

  /** `primes` is the prime list the rounds leave once one comes out
      empty. */
  ghost predicate Generated(minterms: seq<nat>, primes: seq<Term>) {
    exists rounds, lists :: Trace(minterms, rounds, lists) &&
      rounds[|rounds| - 1] == [] && lists[|lists| - 1] == primes
  }

  /** One more round extends a trace. */
  lemma TraceExtend(minterms: seq<nat>, rounds: seq<seq<Term>>, lists: seq<seq<Term>>,
                    next: seq<Term>, primes': seq<Term>)
    requires Trace(minterms, rounds, lists)
    requires RoundStep(rounds[|rounds| - 1], lists[|lists| - 1], next, primes')
    ensures Trace(minterms, rounds + [next], lists + [primes'])
  {
    var rs, ls := rounds + [next], lists + [primes'];
    forall k | 0 <= k < |rs| - 1
      ensures RoundStep(rs[k], ls[k], rs[k + 1], ls[k + 1])
    {
      if k < |rounds| - 1 {
        assert rs[k] == rounds[k] && rs[k + 1] == rounds[k + 1];
        assert ls[k] == lists[k] && ls[k + 1] == lists[k + 1];
      }
    }
  }

  /** Two traces agree wherever both are defined. */
  lemma {:induction false} TraceAgree(minterms: seq<nat>, rs: seq<seq<Term>>, ls: seq<seq<Term>>,
                                      rs': seq<seq<Term>>, ls': seq<seq<Term>>, k: nat)
    requires Trace(minterms, rs, ls) && Trace(minterms, rs', ls')
    requires k < |rs| && k < |rs'|
    ensures rs[k] == rs'[k] && ls[k] == ls'[k]
  {
    if k > 0 {
      TraceAgree(minterms, rs, ls, rs', ls', k - 1);
      assert RoundStep(rs[k - 1], ls[k - 1], rs[k], ls[k]);
      assert RoundStep(rs'[k - 1], ls'[k - 1], rs'[k], ls'[k]);
    }
  }

  /** Once a round is empty, every later round is empty and the prime list
      no longer changes. */
  lemma {:induction false} Settled(minterms: seq<nat>, rs: seq<seq<Term>>, ls: seq<seq<Term>>, k: nat, l: nat)
    requires Trace(minterms, rs, ls) && k <= l < |rs| && rs[k] == []
    ensures rs[l] == [] && ls[l] == ls[k]
    decreases l - k
  {
    if k < l {
      assert RoundStep(rs[k], ls[k], rs[k + 1], ls[k + 1]);
      assert ScanMerges(rs[k], 0) == [];
      assert Uncombined(rs[k], CombinedFlags(rs[k])) == [];
      Settled(minterms, rs, ls, k + 1, l);
    }
  }

  /** The rounds fix the prime list: there is only one generated list. */
  lemma GeneratedUnique(minterms: seq<nat>, p: seq<Term>, q: seq<Term>)
    requires Generated(minterms, p) && Generated(minterms, q)
    ensures p == q
  {
    var rs, ls :| Trace(minterms, rs, ls) && rs[|rs| - 1] == [] && ls[|ls| - 1] == p;
    var rs', ls' :| Trace(minterms, rs', ls') && rs'[|rs'| - 1] == [] && ls'[|ls'| - 1] == q;
    var k, l := |rs| - 1, |rs'| - 1;
    if k <= l {
      TraceAgree(minterms, rs, ls, rs', ls', k);
      Settled(minterms, rs', ls', k, l);
    } else {
      TraceAgree(minterms, rs, ls, rs', ls', l);
      Settled(minterms, rs, ls, l, k);
    }
  }

  /** The state of the round loop before round `k`: `cur` holds the
      candidates of rank `k`, and `primes` holds the prime implicants of
      rank below `k`, ordered by rank and without duplicates. */
  ghost predicate Generating(minterms: seq<nat>, cur: seq<Term>, primes: seq<Term>, k: nat) {
    IsRound(cur, minterms, k) &&
    NoDup(primes) && RankOrdered(primes) &&
    forall t :: t in primes <==> Prime(t, minterms) && Rank(t) < k
  }

  /** Lines 57-64: round 0 holds one term per minterm, in minterm order. */
  method StartRound(minterms: seq<nat>) returns (cur: seq<Term>)
    ensures cur == FirstTerms(minterms) && IsRound(cur, minterms, 0)
  {
    cur := [];
    var i := 0;
    while i < |minterms|
      invariant 0 <= i <= |minterms| && |cur| == i
      invariant forall k :: 0 <= k < i ==> cur[k] == Minterm(minterms[k])
    {
      cur := AddTerm(cur, minterms[i], 0);
      i := i + 1;
    }
    FirstRound(cur, minterms);
  }

  /** Once round `k` comes out empty, the primes of rank below `k` are all
      the prime implicants, and they cover every minterm. */
  lemma AllPrimesFound(minterms: seq<nat>, primes: seq<Term>, k: nat, w: nat)
    requires IsRound([], minterms, k) && AllFit(minterms, w)
    requires forall t :: t in primes <==> Prime(t, minterms) && Rank(t) < k
    ensures forall t :: t in primes <==> Prime(t, minterms)
    ensures forall m :: m in minterms ==> exists p :: p in primes && Covers(p, m)
  {
    forall t | Prime(t, minterms) ensures Rank(t) < k {
      if Rank(t) >= k {
        var u := RankDown(t, minterms, k);
        assert false;
      }
    }
    forall m | m in minterms
      ensures exists p :: p in primes && Covers(p, m)
    {
      MintermCovers(m, m);
      var p := AbovePrime(Minterm(m), minterms, w);
      assert p in primes;
    }
  }

  /** Lines 71-106 for one non-empty round `k`: the next round is round
      `k + 1`, and the primes of rank `k` join the list, after those of
      lower rank. */
  method GenerateRound(cur: seq<Term>, primes: seq<Term>, ghost minterms: seq<nat>, ghost k: nat)
    returns (next: seq<Term>, primes': seq<Term>)
    requires |cur| > 0 && Generating(minterms, cur, primes, k)
    ensures Generating(minterms, next, primes', k + 1)
    ensures RoundStep(cur, primes, next, primes')
    ensures forall n: nat :: AllFit(minterms, n) ==> k <= n
  {
    assert cur[0] in cur;
    RankBound(cur[0], minterms);
    var combined;
    next, combined := CombineRound(cur);
    assert combined == CombinedFlags(cur);
    NextRound(cur, next, minterms, k);
    RoundPrimes(cur, combined, minterms, k);
    primes' := CollectPrimes(cur, combined, primes);
    OrderedAppend(primes, primes', cur, combined, k);
  }

  /** `compute_prime_implicants`: the prime list holds, without duplicates,
      exactly the prime implicants of the minterms; every minterm is
      covered by one of them; and for `n`-variable minterms the loop runs
      at most `n + 1` rounds (`rounds` counts them). */
  method PrimeImplicants(minterms: seq<nat>) returns (primes: seq<Term>, ghost rounds: nat)
    ensures Generated(minterms, primes)
    ensures NoDup(primes) && RankOrdered(primes)
    ensures forall t :: t in primes <==> Prime(t, minterms)
    ensures forall m :: m in minterms ==> exists p :: p in primes && Covers(p, m)
    ensures forall n: nat :: AllFit(minterms, n) ==> rounds <= n + 1
  {
    var cur := StartRound(minterms);
    primes := [];
    ghost var w := SomeWidth(minterms);
    rounds := 0;
    ghost var rs, ls := [cur], [primes];
    while |cur| > 0
      invariant Generating(minterms, cur, primes, rounds)
      invariant Trace(minterms, rs, ls) && |rs| == rounds + 1
      invariant rs[rounds] == cur && ls[rounds] == primes
      invariant forall n: nat :: AllFit(minterms, n) ==> rounds <= n + 1
      invariant rounds <= w + 1
      decreases w + 1 - rounds
    {
      var next;
      var primes';
      next, primes' := GenerateRound(cur, primes, minterms, rounds);
      TraceExtend(minterms, rs, ls, next, primes');
      rs, ls := rs + [next], ls + [primes'];
      cur, primes := next, primes';
      rounds := rounds + 1;
    }
    AllPrimesFound(minterms, primes, rounds, w);
  }
}

=== FILE: minimize.dfy ===
/**
 * `perform_quine_mccluskey` end to end: prime implicants, the cover, and
 * the text printed after `F = `.
 */
module Minimize {
  import opened Bits
  import opened Terms
  import opened TermLists
  import opened Generation
  import opened Selection
  import opened Render

  /** `MAX_VARIABLES`: the most variables the program accepts. */
  const MaxVariables: nat := 16

  /** Every selected prime's product holds exactly on the values it covers,
      so the printed sum holds exactly where a selected prime covers. */
  lemma SumCovers(primes: seq<Term>, selected: seq<bool>, minterms: seq<nat>, n: nat, x: nat)
    requires |selected| == |primes| && AllFit(minterms, n) && Fits(x, n)
    requires forall j :: 0 <= j < |primes| ==> Candidate(primes[j], minterms)
    ensures SumHolds(LiteralLists(Chosen(primes, selected), n), x) <==> CoveredBy(primes, selected, x)
  {
    SelectedMeaning(primes, selected, n, x);
    forall j | 0 <= j < |primes|
      ensures ProductHolds(Literals(primes[j], n), x) <==> Covers(primes[j], x)
    {
      ImplicantFits(primes[j], minterms, n);
      ProductMeaning(primes[j], n, x);
    }
  }

  /** The selection covers the minterms and nothing else. */
  lemma CoverExact(primes: seq<Term>, selected: seq<bool>, minterms: seq<nat>, x: nat)
    requires |selected| == |primes|
    requires forall j :: 0 <= j < |primes| ==> Candidate(primes[j], minterms)
    requires forall k :: 0 <= k < |minterms| ==> CoveredBy(primes, selected, minterms[k])
    ensures CoveredBy(primes, selected, x) <==> x in minterms
  {
    if CoveredBy(primes, selected, x) {
      var j :| 0 <= j < |primes| && j < |selected| && selected[j] && Covers(primes[j], x);
      assert Implicant(primes[j], minterms);
    }
    if x in minterms {
      var k :| 0 <= k < |minterms| && minterms[k] == x;
      assert CoveredBy(primes, selected, minterms[k]);
    }
  }

  /** A cover among the primes for every minterm gives one at an index. */
  lemma PrimesCoverable(primes: seq<Term>, minterms: seq<nat>)
    requires forall m :: m in minterms ==> exists p :: p in primes && Covers(p, m)
    ensures Coverable(primes, minterms)
  {
    forall k | 0 <= k < |minterms|
      ensures HasCover(primes, minterms[k])
    {
      assert minterms[k] in minterms;
      var p :| p in primes && Covers(p, minterms[k]);
      var j :| 0 <= j < |primes| && primes[j] == p;
    }
  }

  /** Lines 151-273 without the banners: compute the prime implicants,
      select a cover and render it. The printed sum, read back, holds for
      an `n`-variable value exactly when the value is one of the minterms. */
  method Minimize(minterms: seq<nat>, numVars: nat) returns (primes: seq<Term>, selected: seq<bool>, text: string)
    requires 1 <= numVars <= MaxVariables
    requires AllFit(minterms, numVars)
    ensures Generated(minterms, primes) && NoDup(primes) && RankOrdered(primes)
    ensures forall t :: t in primes <==> Prime(t, minterms)
    ensures GreedyCover(primes, minterms, selected) && |selected| == |primes|
    ensures forall j :: 0 <= j < |primes| && Essential(primes, minterms, j) ==> selected[j]
    ensures Picked(selected) <= |MintermSet(minterms)|
    ensures text == SumText(primes, selected, numVars)
    ensures ParseSum(text) == Some(LiteralLists(Chosen(primes, selected), numVars))
    ensures forall x: nat :: Fits(x, numVars) ==>
      (SumHolds(LiteralLists(Chosen(primes, selected), numVars), x) <==> x in minterms)
  {
    ghost var rounds;
    primes, rounds := PrimeImplicants(minterms);
    PrimesCoverable(primes, minterms);
    selected := SelectCover(primes, minterms);
    text := RenderSum(primes, selected, numVars);
    SumRoundTrip(primes, selected, numVars);
    assert forall j :: 0 <= j < |primes| ==> primes[j] in primes;
    forall x: nat | Fits(x, numVars)
      ensures SumHolds(LiteralLists(Chosen(primes, selected), numVars), x) <==> x in minterms
    {
      SumCovers(primes, selected, minterms, numVars, x);
      CoverExact(primes, selected, minterms, x);
    }
  }
}

=== FILE: render.dfy ===
/**
 * Rendering the minimized sum of products (`print_term_expression`,
 * `print_term_with_parens` and the join loop of `perform_quine_mccluskey`)
 * as a pure string builder.
 *
 * Characters are Unicode scalar values: the product separator is U+22C5
 * DOT OPERATOR, which the C program writes out as its UTF-8 bytes.
 */
module Render {
  import opened Bits
  import opened Terms

  datatype Option<T> = None | Some(value: T)

  /** One literal of a product: `x<pos>` when `positive`, `x<pos>'` when
      complemented. */
  datatype Literal = Literal(pos: nat, positive: bool)

  /** The separator between the literals of a product. */
  const Dot: char := '\U{22C5}'

  /** The separator between the products of the sum. */
  const Plus: string := " + "

  // ---------------------------------------------------------------------
  // Decimal numerals (`%d` on a non-negative int)
  // ---------------------------------------------------------------------

  predicate IsDigit(c: char) {
    '0' <= c <= '9'
  }

  predicate AllDigits(s: string) {
    forall i :: 0 <= i < |s| ==> IsDigit(s[i])
  }

  function DigitChar(d: nat): (c: char)
    requires d < 10
    ensures IsDigit(c)
  {
    ('0' as int + d) as char
  }

  function DigitValue(c: char): (d: nat)
    requires IsDigit(c)
  {
    c as int - '0' as int
  }

  /** The decimal numeral of `n`, most significant digit first. */
  function Decimal(n: nat): (s: string)
    ensures |s| > 0 && AllDigits(s)
  {
    if n < 10 then [DigitChar(n)] else Decimal(n / 10) + [DigitChar(n % 10)]
  }

  /** The value of a numeral. */
  function ParseDecimal(s: string): (n: nat)
    requires AllDigits(s)
  {
    if |s| == 0 then 0 else ParseDecimal(s[..|s| - 1]) * 10 + DigitValue(s[|s| - 1])
  }

  /** Reading back a numeral gives the number, and numerals carry no
      leading zero. */
  lemma {:induction false} DecimalRoundTrip(n: nat)
    ensures ParseDecimal(Decimal(n)) == n
    ensures Decimal(n)[0] != '0' || n == 0
  {
    if n >= 10 {
      var s := Decimal(n);
      DecimalRoundTrip(n / 10);
      assert s[..|s| - 1] == Decimal(n / 10);
    }
  }

  // ---------------------------------------------------------------------
  // Joining and splitting
  // ---------------------------------------------------------------------

  /** The parts separated by `sep`; the empty string for no part. */
  function Join(parts: seq<string>, sep: string): (s: string) {
    if |parts| == 0 then ""
    else if |parts| == 1 then parts[0]
    else Join(parts[..|parts| - 1], sep) + sep + parts[|parts| - 1]
  }

  /** Joining one more part appends the separator and the part. */
  lemma JoinSnoc(parts: seq<string>, last: string, sep: string)
    ensures Join(parts + [last], sep) == if |parts| == 0 then last else Join(parts, sep) + sep + last
  {
    assert (parts + [last])[..|parts|] == parts;
  }

  /** The pieces of `s` between occurrences of `c`. */
  function SplitOn(s: string, c: char): (r: seq<string>)
    ensures |r| > 0
  {
    if |s| == 0 then [""]
    else
      var init := SplitOn(s[..|s| - 1], c);
      if s[|s| - 1] == c then init + [""]
      else init[..|init| - 1] + [init[|init| - 1] + [s[|s| - 1]]]
  }

  /** A string free of `c` is a single piece. */
  lemma {:induction false} SplitFree(s: string, c: char)
    requires c !in s
    ensures SplitOn(s, c) == [s]
    decreases |s|
  {
    if |s| > 0 {
      SplitFree(s[..|s| - 1], c);
      assert s[..|s| - 1] + [s[|s| - 1]] == s;
    }
  }

  /** Appending `c` and a `c`-free string adds one piece. */
  lemma {:induction false} SplitAppend(a: string, c: char, b: string)
    requires c !in b
    ensures SplitOn(a + [c] + b, c) == SplitOn(a, c) + [b]
    decreases |b|
  {
    if |b| == 0 {
      assert (a + [c] + b)[..|a + [c] + b| - 1] == a;
    } else {
      var b' := b[..|b| - 1];
      SplitAppend(a, c, b');
      assert (a + [c] + b)[..|a + [c] + b| - 1] == a + [c] + b';
      assert b' + [b[|b| - 1]] == b;
    }
  }

  /** Splitting undoes joining with a one-character separator that no part
      contains. */
  lemma {:induction false} SplitJoin(parts: seq<string>, c: char)
    requires |parts| > 0
    requires forall k :: 0 <= k < |parts| ==> c !in parts[k]
    ensures SplitOn(Join(parts, [c]), c) == parts
    decreases |parts|
  {
    if |parts| == 1 {
      SplitFree(parts[0], c);
    } else {
      var init := parts[..|parts| - 1];
      SplitJoin(init, c);
      SplitAppend(Join(init, [c]), c, parts[|parts| - 1]);
      assert init + [parts[|parts| - 1]] == parts;
    }
  }

  // ---------------------------------------------------------------------
  // Products
  // ---------------------------------------------------------------------

  /** `x<pos>` or `x<pos>'`. */
  function LiteralText(l: Literal): (s: string) {
    "x" + Decimal(l.pos) + (if l.positive then "" else "'")
  }

  /** Reads one literal back; `None` for anything else. */
  function ParseLiteral(s: string): (r: Option<Literal>) {
    if |s| < 2 || s[0] != 'x' then None
    else
      var positive := s[|s| - 1] != '\'';
      var digits := if positive then s[1..] else s[1..|s| - 1];
      if |digits| > 0 && AllDigits(digits) then Some(Literal(ParseDecimal(digits), positive))
      else None
  }

  /** The characters a product is written with. */
  predicate ProductChar(c: char) {
    c == 'x' || c == '\'' || c == Dot || IsDigit(c)
  }

  predicate ProductChars(s: string) {
    forall i :: 0 <= i < |s| ==> ProductChar(s[i])
  }

  /** Joining parts written with product characters by such a separator
      stays within them. */
  lemma {:induction false} JoinChars(parts: seq<string>, sep: string)
    requires ProductChars(sep)
    requires forall k :: 0 <= k < |parts| ==> ProductChars(parts[k])
    ensures ProductChars(Join(parts, sep))
    decreases |parts|
  {
    if |parts| > 1 {
      JoinChars(parts[..|parts| - 1], sep);
    }
  }

  lemma LiteralRoundTrip(l: Literal)
    ensures ParseLiteral(LiteralText(l)) == Some(l)
    ensures Dot !in LiteralText(l) && |LiteralText(l)| >= 2
  {
    var s := LiteralText(l);
    var d := Decimal(l.pos);
    DecimalRoundTrip(l.pos);
    if l.positive {
      assert s == "x" + d;
      assert s[1..] == d;
    } else {
      assert s == "x" + d + "'";
      assert s[1..|s| - 1] == d;
    }
    assert forall i :: 0 <= i < |d| ==> d[i] != Dot;
  }

  /** A literal is written with product characters only. */
  lemma LiteralChars(l: Literal)
    ensures ProductChars(LiteralText(l))
  {
    var d := Decimal(l.pos);
    assert forall i :: 0 <= i < |d| ==> ProductChar(d[i]);
  }

  /** The literals of `t` for positions `hi-1` down to `lo`: one per
      unmasked position, complemented where the bit is 0. */
  function LiteralsFrom(t: Term, hi: nat, lo: nat): (ls: seq<Literal>)
    decreases hi
  {
    if hi <= lo then []
    else
      (if Bit(t.mask, hi - 1) then [] else [Literal(hi - 1, Bit(t.bits, hi - 1))]) +
      LiteralsFrom(t, hi - 1, lo)
  }

  /** The literals of an `n`-variable term, from `x<n-1>` down to `x0`. */
  function Literals(t: Term, n: nat): (ls: seq<Literal>) {
    LiteralsFrom(t, n, 0)
  }

  function Texts(ls: seq<Literal>): (r: seq<string>)
    ensures |r| == |ls|
  {
    if |ls| == 0 then [] else Texts(ls[..|ls| - 1]) + [LiteralText(ls[|ls| - 1])]
  }

  lemma TextsSnoc(ls: seq<Literal>, l: Literal)
    ensures Texts(ls + [l]) == Texts(ls) + [LiteralText(l)]
  {
    assert (ls + [l])[..|ls|] == ls;
  }

  /** What `print_term_expression` writes: the literals joined by the dot,
      or `1` for a term that masks every position. */
  function ProductText(t: Term, n: nat): (s: string) {
    var ls := Literals(t, n);
    if |ls| == 0 then "1" else Join(Texts(ls), [Dot])
  }

  /** Reads every piece with `parse`; `None` when some piece does not
      read. */
  function ParseAll<T>(pieces: seq<string>, parse: string -> Option<T>): (r: Option<seq<T>>) {
    if |pieces| == 0 then Some([])
    else
      match ParseAll(pieces[..|pieces| - 1], parse)
      case None => None
      case Some(xs) =>
        match parse(pieces[|pieces| - 1])
        case None => None
        case Some(x) => Some(xs + [x])
  }

  /** One more piece that reads adds its value. */
  lemma ParseAllSnoc<T>(pieces: seq<string>, p: string, parse: string -> Option<T>, xs: seq<T>, x: T)
    requires ParseAll(pieces, parse) == Some(xs) && parse(p) == Some(x)
    ensures ParseAll(pieces + [p], parse) == Some(xs + [x])
  {
    assert (pieces + [p])[..|pieces|] == pieces;
  }

  /** A piece list reads when each piece reads on its own. */
  lemma {:induction false} ParseAllEach<T>(pieces: seq<string>, parse: string -> Option<T>, xs: seq<T>)
    requires |pieces| == |xs|
    requires forall k :: 0 <= k < |pieces| ==> parse(pieces[k]) == Some(xs[k])
    ensures ParseAll(pieces, parse) == Some(xs)
    decreases |pieces|
  {
    if |pieces| > 0 {
      var n := |pieces| - 1;
      ParseAllEach(pieces[..n], parse, xs[..n]);
      ParseAllSnoc(pieces[..n], pieces[n], parse, xs[..n], xs[n]);
      assert pieces[..n] + [pieces[n]] == pieces && xs[..n] + [xs[n]] == xs;
    }
  }


  /** Reads a product back into its literals. */
  function ParseProduct(s: string): (r: Option<seq<Literal>>) {
    if s == "1" then Some([]) else ParseAll(SplitOn(s, Dot), ParseLiteral)
  }

  /** Extending the lower bound by one position adds at most that
      position's literal, at the end. */
  lemma {:induction false} LiteralsStep(t: Term, hi: nat, lo: nat)
    requires lo < hi
    ensures LiteralsFrom(t, hi, lo) ==
      LiteralsFrom(t, hi, lo + 1) + (if Bit(t.mask, lo) then [] else [Literal(lo, Bit(t.bits, lo))])
    decreases hi
  {
    if hi > lo + 1 {
      LiteralsStep(t, hi - 1, lo);
    }
  }

  /** The literals are exactly the unmasked positions in range, each with
      the polarity of its bit, listed from the highest position down. */
  lemma {:induction false} LiteralsMeaning(t: Term, hi: nat, lo: nat)
    ensures forall l :: l in LiteralsFrom(t, hi, lo) <==>
      lo <= l.pos < hi && !Bit(t.mask, l.pos) && l.positive == Bit(t.bits, l.pos)
    ensures forall a, b :: 0 <= a < b < |LiteralsFrom(t, hi, lo)| ==>
      LiteralsFrom(t, hi, lo)[a].pos > LiteralsFrom(t, hi, lo)[b].pos
    decreases hi
  {
    if hi > lo {
      LiteralsMeaning(t, hi - 1, lo);
    }
  }

  /** Reading a rendered product back yields its literals. */
  lemma ProductRoundTrip(t: Term, n: nat)
    ensures ParseProduct(ProductText(t, n)) == Some(Literals(t, n))
    ensures |ProductText(t, n)| > 0 && ProductChars(ProductText(t, n))
  {
    var ls := Literals(t, n);
    if |ls| > 0 {
      var texts := Texts(ls);
      forall k | 0 <= k < |texts|
        ensures Dot !in texts[k] && ProductChars(texts[k]) && |texts[k]| >= 2
        ensures ParseLiteral(texts[k]) == Some(ls[k])
      {
        TextsAt(ls, k);
        LiteralRoundTrip(ls[k]);
        LiteralChars(ls[k]);
      }
      JoinChars(texts, [Dot]);
      SplitJoin(texts, Dot);
      assert |ProductText(t, n)| >= 2;
      ParseAllEach(texts, ParseLiteral, ls);
    }
  }

  lemma {:induction false} TextsAt(ls: seq<Literal>, k: int)
    requires 0 <= k < |ls|
    ensures Texts(ls)[k] == LiteralText(ls[k])
    decreases |ls|
  {
    if k < |ls| - 1 {
      TextsAt(ls[..|ls| - 1], k);
    }
  }

  /** The rendered product means what the term covers: an `n`-variable
      value is covered exactly when it satisfies every literal. */
  lemma ProductMeaning(t: Term, n: nat, x: nat)
    requires Fits(t.bits, n) && Fits(x, n)
    ensures Covers(t, x) <==> forall l :: l in Literals(t, n) ==> Bit(x, l.pos) == l.positive
  {
    LiteralsMeaning(t, n, 0);
    CoversBits(t, x);
    FitsBits(t.bits, n);
    FitsBits(x, n);
    if forall l :: l in Literals(t, n) ==> Bit(x, l.pos) == l.positive {
      forall i: nat | !Bit(t.mask, i)
        ensures Bit(x, i) == Bit(t.bits, i)
      {
        if i < n {
          assert Literal(i, Bit(t.bits, i)) in Literals(t, n);
        }
      }
    }
  }

  /** One position of the scan of `print_term_expression`: a masked
      position adds nothing; an unmasked one adds its literal, after a dot
      when something is already written. */
  lemma ProductStep(t: Term, n: nat, i: nat)
    requires i < n
    ensures Bit(t.mask, i) ==> LiteralsFrom(t, n, i) == LiteralsFrom(t, n, i + 1)
    ensures !Bit(t.mask, i) ==> |LiteralsFrom(t, n, i)| > 0
    ensures !Bit(t.mask, i) ==>
      Join(Texts(LiteralsFrom(t, n, i)), [Dot]) ==
        (if |LiteralsFrom(t, n, i + 1)| > 0 then Join(Texts(LiteralsFrom(t, n, i + 1)), [Dot]) + [Dot] else "") +
        LiteralText(Literal(i, Bit(t.bits, i)))
  {
    var before := LiteralsFrom(t, n, i + 1);
    var lit := Literal(i, Bit(t.bits, i));
    LiteralsStep(t, n, i);
    if !Bit(t.mask, i) {
      TextsSnoc(before, lit);
      JoinSnoc(Texts(before), LiteralText(lit), [Dot]);
    }
  }

  /** The body of the scan of `print_term_expression` for position `i`:
      `x<i>` or `x<i>'` when the position is unmasked, after a dot when
      something is already written. */
  method RenderPosition(t: Term, n: nat, i: nat, s0: string, printed0: bool)
    returns (s: string, printed: bool)
    requires i < n
    requires printed0 <==> |LiteralsFrom(t, n, i + 1)| > 0
    requires s0 == Join(Texts(LiteralsFrom(t, n, i + 1)), [Dot])
    ensures printed <==> |LiteralsFrom(t, n, i)| > 0
    ensures s == Join(Texts(LiteralsFrom(t, n, i)), [Dot])
  {
    ProductStep(t, n, i);
    s, printed := s0, printed0;
    var masked := TestBit(t.mask, i);
    if !masked {
      var one := TestBit(t.bits, i);
      var prefix := if printed then s + [Dot] else "";
      s := prefix + LiteralText(Literal(i, one));
      printed := true;
    }
  }

  /** `print_term_expression`: scan the positions from `n-1` down to 0,
      and write `1` when every position is masked. */
  method RenderProduct(t: Term, numVars: nat) returns (s: string)
    ensures s == ProductText(t, numVars)
  {
    s := "";
    var printed := false;
    var i: int := numVars;
    assert LiteralsFrom(t, numVars, i) == [];
    while i > 0
      invariant 0 <= i <= numVars
      invariant printed <==> |LiteralsFrom(t, numVars, i)| > 0
      invariant s == Join(Texts(LiteralsFrom(t, numVars, i)), [Dot])
    {
      s, printed := RenderPosition(t, numVars, i - 1, s, printed);
      i := i - 1;
    }
    assert i == 0;
    if !printed {
      s := "1";
    }
  }

  // ---------------------------------------------------------------------
  // The sum
  // ---------------------------------------------------------------------

  /** What `print_term_with_parens` writes. */
  function Parenthesized(t: Term, n: nat): (s: string) {
    "(" + ProductText(t, n) + ")"
  }

  /** The selected primes, in prime order. */
  function Chosen(primes: seq<Term>, selected: seq<bool>): (cs: seq<Term>)
    requires |selected| == |primes|
  {
    if |primes| == 0 then []
    else
      var k := |primes| - 1;
      Chosen(primes[..k], selected[..k]) + (if selected[k] then [primes[k]] else [])
  }

  /** The parenthesized product of each term. */
  function Products(ts: seq<Term>, n: nat): (r: seq<string>)
    ensures |r| == |ts| && forall k :: 0 <= k < |ts| ==> r[k] == Parenthesized(ts[k], n)
  {
    seq(|ts|, k requires 0 <= k < |ts| => Parenthesized(ts[k], n))
  }

  /** The text after `F = `: the selected products joined by ` + `. */
  function SumText(primes: seq<Term>, selected: seq<bool>, n: nat): (s: string)
    requires |selected| == |primes|
  {
    Join(Products(Chosen(primes, selected), n), Plus)
  }

  /** Every chosen term is a selected prime. */
  lemma {:induction false} ChosenFrom(primes: seq<Term>, selected: seq<bool>, k: nat) returns (j: nat)
    requires |selected| == |primes| && k < |Chosen(primes, selected)|
    ensures j < |primes| && selected[j] && primes[j] == Chosen(primes, selected)[k]
    decreases |primes|
  {
    var i := |primes| - 1;
    var ps, ss := primes[..i], selected[..i];
    if k < |Chosen(ps, ss)| {
      j := ChosenFrom(ps, ss, k);
    } else {
      j := i;
    }
  }

  /** Every selected prime is chosen. */
  lemma {:induction false} ChosenHas(primes: seq<Term>, selected: seq<bool>, j: nat) returns (k: nat)
    requires |selected| == |primes| && j < |primes| && selected[j]
    ensures k < |Chosen(primes, selected)| && Chosen(primes, selected)[k] == primes[j]
    decreases |primes|
  {
    var i := |primes| - 1;
    var ps, ss := primes[..i], selected[..i];
    if j < i {
      k := ChosenHas(ps, ss, j);
    } else {
      k := |Chosen(ps, ss)|;
    }
  }

  /** A term is chosen exactly when it is a selected prime. */
  lemma ChosenMembers(primes: seq<Term>, selected: seq<bool>, t: Term)
    requires |selected| == |primes|
    ensures t in Chosen(primes, selected) <==>
      exists j :: 0 <= j < |primes| && selected[j] && primes[j] == t
  {
    var cs := Chosen(primes, selected);
    if t in cs {
      var k :| 0 <= k < |cs| && cs[k] == t;
      var j := ChosenFrom(primes, selected, k);
    }
    if exists j :: 0 <= j < |primes| && selected[j] && primes[j] == t {
      var j :| 0 <= j < |primes| && selected[j] && primes[j] == t;
      var k := ChosenHas(primes, selected, j);
    }
  }

  /** Taking one more prime into account adds it when it is selected. */
  lemma ChosenStep(primes: seq<Term>, selected: seq<bool>, i: nat)
    requires |selected| == |primes| && i < |primes|
    ensures Chosen(primes[..i + 1], selected[..i + 1]) ==
      Chosen(primes[..i], selected[..i]) + (if selected[i] then [primes[i]] else [])
  {
    assert primes[..i + 1][..i] == primes[..i];
    assert selected[..i + 1][..i] == selected[..i];
  }

  lemma ProductsSnoc(ts: seq<Term>, t: Term, n: nat)
    ensures Products(ts + [t], n) == Products(ts, n) + [Parenthesized(t, n)]
  {
  }

  /** The body of the join loop for prime `i`: when it is selected, write
      ` + ` unless it is the first, then the prime in parentheses. */
  method RenderSumPosition(primes: seq<Term>, selected: seq<bool>, n: nat, i: nat, s0: string, first0: bool)
    returns (s: string, first: bool)
    requires |selected| == |primes| && i < |primes|
    requires first0 <==> |Chosen(primes[..i], selected[..i])| == 0
    requires s0 == Join(Products(Chosen(primes[..i], selected[..i]), n), Plus)
    ensures first <==> |Chosen(primes[..i + 1], selected[..i + 1])| == 0
    ensures s == Join(Products(Chosen(primes[..i + 1], selected[..i + 1]), n), Plus)
  {
    ChosenStep(primes, selected, i);
    ghost var cs := Chosen(primes[..i], selected[..i]);
    s, first := s0, first0;
    if selected[i] {
      ProductsSnoc(cs, primes[i], n);
      JoinSnoc(Products(cs, n), Parenthesized(primes[i], n), Plus);
      var p := RenderProduct(primes[i], n);
      var prefix := if first then "" else s + Plus;
      s := prefix + ("(" + p + ")");
      first := false;
    } else {
      assert cs + [] == cs;
    }
  }

  /** Lines 264-273: write each selected prime in parentheses, with ` + `
      before all but the first. */
  method RenderSum(primes: seq<Term>, selected: seq<bool>, numVars: nat) returns (s: string)
    requires |selected| == |primes|
    ensures s == SumText(primes, selected, numVars)
  {
    s := "";
    var first := true;
    var i := 0;
    while i < |primes|
      invariant 0 <= i <= |primes|
      invariant first <==> |Chosen(primes[..i], selected[..i])| == 0
      invariant s == Join(Products(Chosen(primes[..i], selected[..i]), numVars), Plus)
    {
      s, first := RenderSumPosition(primes, selected, numVars, i, s, first);
      i := i + 1;
    }
    assert i == |primes|;
    SumTextAll(primes, selected, numVars);
  }

  /** The sum over the whole prefix is the sum. */
  lemma SumTextAll(primes: seq<Term>, selected: seq<bool>, n: nat)
    requires |selected| == |primes|
    ensures Join(Products(Chosen(primes[..|primes|], selected[..|primes|]), n), Plus) == SumText(primes, selected, n)
  {
    assert primes[..|primes|] == primes && selected[..|primes|] == selected;
  }

  // ---------------------------------------------------------------------
  // Reading the sum back
  // ---------------------------------------------------------------------

  /** Drops one space at each end, where there is one. */
  function Trim(s: string): (r: string) {
    var a := if |s| > 0 && s[0] == ' ' then s[1..] else s;
    if |a| > 0 && a[|a| - 1] == ' ' then a[..|a| - 1] else a
  }

  /** Reads `(<product>)`. */
  function ParseParenthesized(s: string): (r: Option<seq<Literal>>) {
    if |s| >= 2 && s[0] == '(' && s[|s| - 1] == ')' then ParseProduct(s[1..|s| - 1]) else None
  }

  /** Trims every piece. */
  function TrimAll(pieces: seq<string>): (r: seq<string>)
    ensures |r| == |pieces| && forall k :: 0 <= k < |r| ==> r[k] == Trim(pieces[k])
  {
    seq(|pieces|, k requires 0 <= k < |pieces| => Trim(pieces[k]))
  }

  /** Reads a sum back into the literal lists of its products; the empty
      text is the empty sum. */
  function ParseSum(s: string): (r: Option<seq<seq<Literal>>>) {
    if s == "" then Some([]) else ParseAll(TrimAll(SplitOn(s, '+')), ParseParenthesized)
  }

  /** The literal list of each term. */
  function LiteralLists(ts: seq<Term>, n: nat): (r: seq<seq<Literal>>)
    ensures |r| == |ts| && forall k :: 0 <= k < |ts| ==> r[k] == Literals(ts[k], n)
  {
    seq(|ts|, k requires 0 <= k < |ts| => Literals(ts[k], n))
  }

  /** A part of the sum: parenthesized, no `+`, no space at either end. */
  predicate SumPart(p: string) {
    |p| >= 2 && p[0] == '(' && p[|p| - 1] == ')' && '+' !in p
  }

  /** The pieces between the `+` signs of `Join(parts, " + ")`: each part
      with the spaces around the signs next to it. */
  function Padded(parts: seq<string>): (r: seq<string>) {
    seq(|parts|, k requires 0 <= k < |parts| =>
      (if k > 0 then " " else "") + parts[k] + (if k < |parts| - 1 then " " else ""))
  }

  /** Appending a character other than `c` extends the last piece. */
  lemma SplitExtend(a: string, ch: char, c: char)
    requires ch != c
    ensures SplitOn(a + [ch], c) ==
      SplitOn(a, c)[..|SplitOn(a, c)| - 1] + [SplitOn(a, c)[|SplitOn(a, c)| - 1] + [ch]]
  {
    assert (a + [ch])[..|a|] == a;
  }

  /** Appending ` + x` to a text splits into its pieces, the last one
      padded on the right, and ` x`. */
  lemma SplitPlusStep(j: string, x: string, pi: seq<string>)
    requires SplitOn(j, '+') == pi && '+' !in x
    ensures SplitOn(j + Plus + x, '+') == pi[..|pi| - 1] + [pi[|pi| - 1] + " "] + [" " + x]
  {
    assert j + Plus + x == (j + " ") + ['+'] + (" " + x);
    SplitAppend(j + " ", '+', " " + x);
    SplitExtend(j, ' ', '+');
  }

  /** Padding one more part pads the previous last part on the right. */
  lemma PaddedStep(init: seq<string>, x: string)
    requires |init| > 0
    ensures Padded(init + [x]) ==
      Padded(init)[..|init| - 1] + [Padded(init)[|init| - 1] + " "] + [" " + x]
  {
    var pi := Padded(init);
    var l := pi[..|init| - 1] + [pi[|init| - 1] + " "] + [" " + x];
    forall k | 0 <= k < |init| + 1
      ensures Padded(init + [x])[k] == l[k]
    {
    }
  }

  /** A single part is not padded. */
  lemma PaddedOne(parts: seq<string>)
    requires |parts| == 1
    ensures Padded(parts) == parts
  {
    assert Padded(parts)[0] == "" + parts[0] + "" == parts[0];
  }

  /** Splitting a sum at its `+` signs gives the padded parts. */
  lemma {:induction false} SplitSum(parts: seq<string>)
    requires |parts| > 0
    requires forall k :: 0 <= k < |parts| ==> '+' !in parts[k]
    ensures SplitOn(Join(parts, Plus), '+') == Padded(parts)
    decreases |parts|
  {
    if |parts| == 1 {
      SplitFree(parts[0], '+');
      PaddedOne(parts);
    } else {
      var init, x := parts[..|parts| - 1], parts[|parts| - 1];
      SplitSum(init);
      SplitPlusStep(Join(init, Plus), x, Padded(init));
      PaddedStep(init, x);
      assert init + [x] == parts;
    }
  }

  /** Trimming a padded part gives the part back. */
  lemma TrimPadded(parts: seq<string>, k: int)
    requires 0 <= k < |parts| && SumPart(parts[k])
    ensures Trim(Padded(parts)[k]) == parts[k]
  {
    var p := parts[k];
    var a := (if k > 0 then " " else "") + p;
    assert Padded(parts)[k] == a + (if k < |parts| - 1 then " " else "");
    if k > 0 {
      assert a[1..] == p;
    }
    if k < |parts| - 1 {
      assert (a + " ")[..|a + " "| - 1] == a;
    }
  }

  /** A parenthesized product reads back as its literals. */
  lemma ParenthesizedRoundTrip(t: Term, n: nat)
    ensures ParseParenthesized(Parenthesized(t, n)) == Some(Literals(t, n))
    ensures SumPart(Parenthesized(t, n))
  {
    var p := ProductText(t, n);
    var s := Parenthesized(t, n);
    ProductRoundTrip(t, n);
    assert s[1..|s| - 1] == p;
    assert forall i :: 0 <= i < |p| ==> p[i] != '+';
  }

  /** Trimming the padded parts gives the parts back. */
  lemma TrimPaddedAll(parts: seq<string>)
    requires forall k :: 0 <= k < |parts| ==> SumPart(parts[k])
    ensures TrimAll(Padded(parts)) == parts
  {
    forall k | 0 <= k < |parts|
      ensures TrimAll(Padded(parts))[k] == parts[k]
    {
      TrimPadded(parts, k);
    }
  }

  /** Reading the rendered sum back yields, in prime order, the literals of
      exactly the selected primes. */
  lemma SumRoundTrip(primes: seq<Term>, selected: seq<bool>, n: nat)
    requires |selected| == |primes|
    ensures ParseSum(SumText(primes, selected, n)) == Some(LiteralLists(Chosen(primes, selected), n))
  {
    var cs := Chosen(primes, selected);
    var parts := Products(cs, n);
    forall k | 0 <= k < |parts|
      ensures SumPart(parts[k]) && '+' !in parts[k]
      ensures ParseParenthesized(parts[k]) == Some(LiteralLists(cs, n)[k])
    {
      ParenthesizedRoundTrip(cs[k], n);
    }
    ParseAllEach(parts, ParseParenthesized, LiteralLists(cs, n));
    if |parts| > 0 {
      SplitSum(parts);
      TrimPaddedAll(parts);
      assert |SumText(primes, selected, n)| >= |parts[|parts| - 1]|;
    }
  }

  // ---------------------------------------------------------------------
  // What the printed formula means
  // ---------------------------------------------------------------------

  /** A value satisfies a product when it agrees with every literal. */
  ghost predicate ProductHolds(ls: seq<Literal>, x: nat) {
    forall l :: l in ls ==> Bit(x, l.pos) == l.positive
  }

  /** A value satisfies a sum when it satisfies one of its products. */
  ghost predicate SumHolds(ps: seq<seq<Literal>>, x: nat) {
    exists k :: 0 <= k < |ps| && ProductHolds(ps[k], x)
  }

  /** The printed sum holds exactly where the product of one of the
      selected primes holds. */
  lemma SelectedMeaning(primes: seq<Term>, selected: seq<bool>, n: nat, x: nat)
    requires |selected| == |primes|
    ensures SumHolds(LiteralLists(Chosen(primes, selected), n), x) <==>
      exists j :: 0 <= j < |primes| && selected[j] && ProductHolds(Literals(primes[j], n), x)
  {
    var cs := Chosen(primes, selected);
    var lists := LiteralLists(cs, n);
    if SumHolds(lists, x) {
      var k :| 0 <= k < |lists| && ProductHolds(lists[k], x);
      var j := ChosenFrom(primes, selected, k);
      assert ProductHolds(Literals(primes[j], n), x);
    }
    if exists j :: 0 <= j < |primes| && selected[j] && ProductHolds(Literals(primes[j], n), x) {
      var j :| 0 <= j < |primes| && selected[j] && ProductHolds(Literals(primes[j], n), x);
      var k := ChosenHas(primes, selected, j);
      assert ProductHolds(lists[k], x);
    }
  }
}

=== FILE: selection.dfy ===
/**
 * Choosing a cover from the prime implicants (the selection part of
 * `perform_quine_mccluskey`): first every essential prime is taken, then
 * primes are taken greedily, each time the unselected prime covering the
 * most still-uncovered minterms.
 *
 * `selected` runs parallel to the primes and `covered` parallel to the
 * minterms, as the two `int` arrays of the C program do.
 */
module Selection {
  import opened Terms

  // ---------------------------------------------------------------------
  // Reference notions
  // ---------------------------------------------------------------------

  /** `primes[j]` is the one and only prime covering `m`. */
  ghost predicate OnlyCover(primes: seq<Term>, m: nat, j: int) {
    0 <= j < |primes| && Covers(primes[j], m) &&
    forall l :: 0 <= l < |primes| && l != j ==> !Covers(primes[l], m)
  }

  /** `primes[j]` is the only cover of one of the first `n` minterms. */
  ghost predicate EssentialBefore(primes: seq<Term>, minterms: seq<nat>, j: int, n: int) {
    exists i :: 0 <= i < n && i < |minterms| && OnlyCover(primes, minterms[i], j)
  }

  /** An essential prime: the only cover of some minterm. */
  ghost predicate Essential(primes: seq<Term>, minterms: seq<nat>, j: int) {
    EssentialBefore(primes, minterms, j, |minterms|)
  }

  /** Some selected prime covers `m`. */
  ghost predicate CoveredBy(primes: seq<Term>, selected: seq<bool>, m: nat) {
    exists j :: 0 <= j < |primes| && j < |selected| && selected[j] && Covers(primes[j], m)
  }

  /** The shape of the two flag arrays, and the meaning of `covered`: a
      minterm is marked exactly when a selected prime covers it. */
  ghost predicate Consistent(primes: seq<Term>, minterms: seq<nat>, selected: seq<bool>, covered: seq<bool>) {
    |selected| == |primes| && |covered| == |minterms| &&
    forall k :: 0 <= k < |minterms| ==> (covered[k] <==> CoveredBy(primes, selected, minterms[k]))
  }

  /** Every minterm is marked. */
  predicate AllCovered(covered: seq<bool>) {
    forall k :: 0 <= k < |covered| ==> covered[k]
  }

  /** Number of still-uncovered minterms that `p` covers: the `count` of the
      greedy scan. */
  function Gain(p: Term, minterms: seq<nat>, covered: seq<bool>): (count: nat)
    requires |covered| == |minterms|
    decreases |minterms|
  {
    if |minterms| == 0 then 0
    else
      var n := |minterms| - 1;
      Gain(p, minterms[..n], covered[..n]) + (if !covered[n] && Covers(p, minterms[n]) then 1 else 0)
  }

  /** Number of unmarked minterms. */
  function Uncovered(covered: seq<bool>): (count: nat) {
    if |covered| == 0 then 0
    else
      var n := |covered| - 1;
      Uncovered(covered[..n]) + (if covered[n] then 0 else 1)
  }

  /** Number of selected primes. */
  function Picked(selected: seq<bool>): (count: nat) {
    if |selected| == 0 then 0
    else
      var n := |selected| - 1;
      Picked(selected[..n]) + (if selected[n] then 1 else 0)
  }

  /** The distinct minterms. */
  function MintermSet(minterms: seq<nat>): (ms: set<nat>) {
    set m | m in minterms
  }

  /** `wit[j]` is a witness for every selected prime `j`: a minterm it
      covers, no two selected primes sharing one. */
  ghost predicate Witnessed(primes: seq<Term>, minterms: seq<nat>, selected: seq<bool>, wit: seq<nat>) {
    |selected| == |primes| && |wit| == |primes| &&
    (forall j :: 0 <= j < |primes| && selected[j] ==> wit[j] in minterms && Covers(primes[j], wit[j])) &&
    (forall j, l :: 0 <= j < l < |primes| && selected[j] && selected[l] ==> wit[j] != wit[l])
  }

  /** No unselected prime covers an uncovered minterm: the greedy scan finds
      nothing to take. */
  predicate NoGain(primes: seq<Term>, minterms: seq<nat>, selected: seq<bool>, covered: seq<bool>)
    requires |selected| == |primes| && |covered| == |minterms|
  {
    forall j :: 0 <= j < |primes| && !selected[j] ==> Gain(primes[j], minterms, covered) == 0
  }

  // ---------------------------------------------------------------------
  // Counting lemmas
  // ---------------------------------------------------------------------

  /** `Gain` is positive exactly when `p` covers some uncovered minterm. */
  lemma {:induction false} GainPositive(p: Term, minterms: seq<nat>, covered: seq<bool>)
    requires |covered| == |minterms|
    ensures Gain(p, minterms, covered) > 0 <==>
      exists k :: 0 <= k < |minterms| && !covered[k] && Covers(p, minterms[k])
    decreases |minterms|
  {
    if |minterms| > 0 {
      var n := |minterms| - 1;
      var ms, cs := minterms[..n], covered[..n];
      GainPositive(p, ms, cs);
      if exists k :: 0 <= k < |ms| && !cs[k] && Covers(p, ms[k]) {
        var k :| 0 <= k < |ms| && !cs[k] && Covers(p, ms[k]);
        assert !covered[k] && Covers(p, minterms[k]);
      }
      if exists k :: 0 <= k < |minterms| && !covered[k] && Covers(p, minterms[k]) {
        var k :| 0 <= k < |minterms| && !covered[k] && Covers(p, minterms[k]);
        if k < n {
          assert !cs[k] && Covers(p, ms[k]);
        }
      }
    }
  }

  /** Marking what `p` covers removes exactly `Gain(p, ...)` minterms from
      the uncovered ones. */
  lemma {:induction false} MarkCount(p: Term, minterms: seq<nat>, covered: seq<bool>, r: seq<bool>)
    requires |covered| == |minterms| && |r| == |minterms|
    requires forall k :: 0 <= k < |minterms| ==> (r[k] <==> covered[k] || Covers(p, minterms[k]))
    ensures Uncovered(r) + Gain(p, minterms, covered) == Uncovered(covered)
    decreases |minterms|
  {
    if |minterms| > 0 {
      var n := |minterms| - 1;
      MarkCount(p, minterms[..n], covered[..n], r[..n]);
    }
  }

  /** Selecting one more prime adds one to the count. */
  lemma {:induction false} PickedSet(selected: seq<bool>, j: nat)
    requires j < |selected| && !selected[j]
    ensures Picked(selected[j := true]) == Picked(selected) + 1
    decreases |selected|
  {
    var n := |selected| - 1;
    var s := selected[j := true];
    if j == n {
      assert s[..n] == selected[..n];
    } else {
      assert s[..n] == selected[..n][j := true];
      PickedSet(selected[..n], j);
    }
  }

  /** The witnesses of the selected primes among the first `n`. */
  ghost function Witnesses(selected: seq<bool>, wit: seq<nat>, n: nat): (ws: set<nat>)
    requires n <= |selected| && n <= |wit|
  {
    set j | 0 <= j < n && selected[j] :: wit[j]
  }

  /** Taking prime `m` into account adds its witness, a new one, when it is
      selected. */
  lemma WitnessesStep(primes: seq<Term>, minterms: seq<nat>, selected: seq<bool>, wit: seq<nat>, m: nat)
    requires Witnessed(primes, minterms, selected, wit) && m < |primes|
    ensures selected[m] ==> wit[m] !in Witnesses(selected, wit, m)
    ensures Witnesses(selected, wit, m + 1) ==
      Witnesses(selected, wit, m) + (if selected[m] then {wit[m]} else {})
  {
    if selected[m] {
      forall j | 0 <= j < m && selected[j]
        ensures wit[j] != wit[m]
      {
      }
    }
  }

  /** Distinct witnesses: as many as selected primes. */
  lemma {:induction false} WitnessCount(primes: seq<Term>, minterms: seq<nat>, selected: seq<bool>, wit: seq<nat>, n: nat)
    requires Witnessed(primes, minterms, selected, wit) && n <= |primes|
    ensures |Witnesses(selected, wit, n)| == Picked(selected[..n])
    decreases n
  {
    if n > 0 {
      var m := n - 1;
      WitnessCount(primes, minterms, selected, wit, m);
      assert selected[..n][..m] == selected[..m];
      WitnessesStep(primes, minterms, selected, wit, m);
    }
  }

  /** When every selected prime has its own witness minterm, at most one
      prime is selected per distinct minterm. */
  lemma WitnessBound(primes: seq<Term>, minterms: seq<nat>, selected: seq<bool>, wit: seq<nat>)
    requires Witnessed(primes, minterms, selected, wit)
    ensures Picked(selected) <= |MintermSet(minterms)|
  {
    var n := |primes|;
    WitnessCount(primes, minterms, selected, wit, n);
    assert selected[..n] == selected;
    var ws := Witnesses(selected, wit, n);
    var ms := MintermSet(minterms);
    assert ws <= ms;
    assert ms == ws + (ms - ws);
  }

  /** An essential prime's witness: a minterm it alone covers. */
  ghost function SoleMinterm(primes: seq<Term>, minterms: seq<nat>, j: int): (m: nat)
    requires Essential(primes, minterms, j)
    ensures m in minterms && OnlyCover(primes, m, j)
  {
    var i :| 0 <= i < |minterms| && OnlyCover(primes, minterms[i], j);
    minterms[i]
  }

  /** The essential primes have distinct witnesses: their sole-cover
      minterms. */
  lemma EssentialWitnesses(primes: seq<Term>, minterms: seq<nat>, selected: seq<bool>) returns (wit: seq<nat>)
    requires |selected| == |primes|
    requires forall j :: 0 <= j < |primes| ==> (selected[j] <==> Essential(primes, minterms, j))
    ensures Witnessed(primes, minterms, selected, wit)
  {
    wit := seq(|primes|, j requires 0 <= j < |primes| =>
      if selected[j] then SoleMinterm(primes, minterms, j) else 0);
    forall j, l | 0 <= j < l < |primes| && selected[j] && selected[l]
      ensures wit[j] != wit[l]
    {
      assert OnlyCover(primes, wit[l], l);
    }
  }

  /** A greedy pick covers an unmarked minterm, which no selected prime
      covers: it serves as the new prime's witness. */
  lemma PickWitness(primes: seq<Term>, minterms: seq<nat>, selected: seq<bool>,
                    covered: seq<bool>, wit: seq<nat>, j: int) returns (wit': seq<nat>)
    requires Consistent(primes, minterms, selected, covered) && Witnessed(primes, minterms, selected, wit)
    requires 0 <= j < |primes| && Gain(primes[j], minterms, covered) > 0
    ensures Witnessed(primes, minterms, selected[j := true], wit')
  {
    GainPositive(primes[j], minterms, covered);
    var k :| 0 <= k < |minterms| && !covered[k] && Covers(primes[j], minterms[k]);
    wit' := wit[j := minterms[k]];
    assert !CoveredBy(primes, selected, minterms[k]);
  }

  /** Selecting `primes[j]` and marking what it covers keeps the flags
      consistent. */
  lemma SelectKeeps(primes: seq<Term>, minterms: seq<nat>, selected: seq<bool>,
                    covered: seq<bool>, j: int, r: seq<bool>)
    requires Consistent(primes, minterms, selected, covered) && 0 <= j < |primes|
    requires |r| == |minterms|
    requires forall k :: 0 <= k < |minterms| ==> (r[k] <==> covered[k] || Covers(primes[j], minterms[k]))
    ensures Consistent(primes, minterms, selected[j := true], r)
  {
    var s := selected[j := true];
    forall k | 0 <= k < |minterms|
      ensures r[k] <==> CoveredBy(primes, s, minterms[k])
    {
      if CoveredBy(primes, s, minterms[k]) {
        var l :| 0 <= l < |primes| && l < |s| && s[l] && Covers(primes[l], minterms[k]);
        if l != j {
          assert CoveredBy(primes, selected, minterms[k]);
        }
      }
      if covered[k] {
        var l :| 0 <= l < |primes| && l < |selected| && selected[l] && Covers(primes[l], minterms[k]);
        assert s[l];
      }
      if Covers(primes[j], minterms[k]) {
        assert s[j];
      }
    }
  }

  /** An essential prime belongs to every cover drawn from the primes: the
      reason the essential pass takes them unconditionally. */
  lemma EssentialNeeded(primes: seq<Term>, minterms: seq<nat>, chosen: seq<bool>, j: int)
    requires |chosen| == |primes| && Essential(primes, minterms, j)
    requires forall k :: 0 <= k < |minterms| ==> CoveredBy(primes, chosen, minterms[k])
    ensures chosen[j]
  {
    var i :| 0 <= i < |minterms| && OnlyCover(primes, minterms[i], j);
    var l :| 0 <= l < |primes| && l < |chosen| && chosen[l] && Covers(primes[l], minterms[i]);
    assert l == j;
  }

  // ---------------------------------------------------------------------
  // The scans
  // ---------------------------------------------------------------------

  /** Lines 186-193: count the primes covering `m`, remembering the last
      one. `count == 1` exactly when that prime is the only cover. */
  method CountCovers(primes: seq<Term>, m: nat) returns (count: nat, last: int)
    ensures -1 <= last < |primes|
    ensures last == -1 <==> forall l :: 0 <= l < |primes| ==> !Covers(primes[l], m)
    ensures last >= 0 ==> Covers(primes[last], m)
    ensures last >= 0 ==> forall l :: last < l < |primes| ==> !Covers(primes[l], m)
    ensures count == 0 <==> last == -1
    ensures forall j :: 0 <= j < |primes| ==> (OnlyCover(primes, m, j) <==> count == 1 && j == last)
  {
    count, last := 0, -1;
    var j := 0;
    while j < |primes|
      invariant 0 <= j <= |primes| && -1 <= last < j
      invariant last == -1 ==> forall l :: 0 <= l < j ==> !Covers(primes[l], m)
      invariant last >= 0 ==> Covers(primes[last], m) && forall l :: last < l < j ==> !Covers(primes[l], m)
      invariant count == 0 <==> last == -1
      invariant count == 1 ==> forall l :: 0 <= l < last ==> !Covers(primes[l], m)
      invariant count >= 2 ==> exists l :: 0 <= l < last && Covers(primes[l], m)
    {
      if Covers(primes[j], m) {
        count := count + 1;
        last := j;
      }
      j := j + 1;
    }
  }

  /** Lines 197-201 and 236-240: mark every minterm `p` covers. */
  method MarkCovered(p: Term, minterms: seq<nat>, covered: seq<bool>) returns (r: seq<bool>)
    requires |covered| == |minterms|
    ensures |r| == |minterms|
    ensures forall k :: 0 <= k < |minterms| ==> (r[k] <==> covered[k] || Covers(p, minterms[k]))
  {
    r := covered;
    var k := 0;
    while k < |minterms|
      invariant 0 <= k <= |minterms| && |r| == |minterms|
      invariant forall l :: 0 <= l < k ==> (r[l] <==> covered[l] || Covers(p, minterms[l]))
      invariant forall l :: k <= l < |minterms| ==> r[l] == covered[l]
    {
      if !r[k] && Covers(p, minterms[k]) {
        r := r[k := true];
      }
      k := k + 1;
    }
  }

  /** Lines 185-203: select every essential prime and mark what it covers.
      The outcome does not depend on the order of the minterms. */
  method EssentialPass(primes: seq<Term>, minterms: seq<nat>) returns (selected: seq<bool>, covered: seq<bool>)
    ensures Consistent(primes, minterms, selected, covered)
    ensures forall j :: 0 <= j < |primes| ==> (selected[j] <==> Essential(primes, minterms, j))
  {
    selected := seq(|primes|, _ => false);
    covered := seq(|minterms|, _ => false);
    var i := 0;
    while i < |minterms|
      invariant 0 <= i <= |minterms|
      invariant Consistent(primes, minterms, selected, covered)
      invariant forall j :: 0 <= j < |primes| ==> (selected[j] <==> EssentialBefore(primes, minterms, j, i))
    {
      var count, last := CountCovers(primes, minterms[i]);
      ghost var before := selected;
      if count == 1 && last >= 0 {
        var r := MarkCovered(primes[last], minterms, covered);
        SelectKeeps(primes, minterms, selected, covered, last, r);
        selected, covered := selected[last := true], r;
      }
      forall j | 0 <= j < |primes|
        ensures selected[j] <==> EssentialBefore(primes, minterms, j, i + 1)
      {
        if EssentialBefore(primes, minterms, j, i + 1) {
          var i' :| 0 <= i' < i + 1 && i' < |minterms| && OnlyCover(primes, minterms[i'], j);
          if i' < i {
            assert EssentialBefore(primes, minterms, j, i);
          }
        }
        if before[j] {
          var i' :| 0 <= i' < i && i' < |minterms| && OnlyCover(primes, minterms[i'], j);
          assert EssentialBefore(primes, minterms, j, i + 1);
        }
        if OnlyCover(primes, minterms[i], j) {
          assert EssentialBefore(primes, minterms, j, i + 1);
        }
      }
      i := i + 1;
    }
  }

  /** Lines 207-213: whether every minterm is marked. */
  method CheckAllCovered(covered: seq<bool>) returns (all: bool)
    ensures all <==> AllCovered(covered)
  {
    all := true;
    var i := 0;
    while i < |covered|
      invariant 0 <= i <= |covered|
      invariant forall k :: 0 <= k < i ==> covered[k]
    {
      if !covered[i] {
        all := false;
        return;
      }
      i := i + 1;
    }
  }

  /** Lines 222-227: the number of uncovered minterms `p` covers. */
  method CountGain(p: Term, minterms: seq<nat>, covered: seq<bool>) returns (count: nat)
    requires |covered| == |minterms|
    ensures count == Gain(p, minterms, covered)
  {
    count := 0;
    var j := 0;
    while j < |minterms|
      invariant 0 <= j <= |minterms|
      invariant count == Gain(p, minterms[..j], covered[..j])
    {
      assert minterms[..j + 1][..j] == minterms[..j];
      assert covered[..j + 1][..j] == covered[..j];
      if !covered[j] && Covers(p, minterms[j]) {
        count := count + 1;
      }
      j := j + 1;
    }
    assert minterms[..j] == minterms && covered[..j] == covered;
  }

  /** Lines 215-233: the unselected prime of greatest gain, the earliest one
      on a tie, or -1 when no unselected prime has a positive gain. */
  method PickBest(primes: seq<Term>, minterms: seq<nat>, selected: seq<bool>, covered: seq<bool>)
    returns (best: int, bestCount: nat)
    requires |selected| == |primes| && |covered| == |minterms|
    ensures -1 <= best < |primes|
    ensures best == -1 <==> NoGain(primes, minterms, selected, covered)
    ensures best >= 0 ==> !selected[best] && bestCount == Gain(primes[best], minterms, covered) > 0
    ensures best >= 0 ==> forall j :: 0 <= j < |primes| && !selected[j] ==>
      Gain(primes[j], minterms, covered) <= bestCount
    ensures best >= 0 ==> forall j :: 0 <= j < best && !selected[j] ==>
      Gain(primes[j], minterms, covered) < bestCount
  {
    best, bestCount := -1, 0;
    var i := 0;
    while i < |primes|
      invariant 0 <= i <= |primes| && -1 <= best < i
      invariant best == -1 <==> bestCount == 0
      invariant best >= 0 ==> !selected[best] && bestCount == Gain(primes[best], minterms, covered)
      invariant forall j :: 0 <= j < i && !selected[j] ==> Gain(primes[j], minterms, covered) <= bestCount
      invariant forall j :: 0 <= j < best && !selected[j] ==> Gain(primes[j], minterms, covered) < bestCount
    {
      if !selected[i] {
        var count := CountGain(primes[i], minterms, covered);
        if count > bestCount {
          best, bestCount := i, count;
        }
      }
      i := i + 1;
    }
  }

  // ---------------------------------------------------------------------
  // The greedy run as a reference
  // ---------------------------------------------------------------------

  /** `best` is the greedy choice: an unselected prime of positive gain,
      no unselected prime gaining more, every earlier one gaining less. */
  ghost predicate GreedyChoice(primes: seq<Term>, minterms: seq<nat>, selected: seq<bool>,
                               covered: seq<bool>, best: int) {
    |selected| == |primes| && |covered| == |minterms| &&
    0 <= best < |primes| && !selected[best] && Gain(primes[best], minterms, covered) > 0 &&
    (forall j :: 0 <= j < |primes| && !selected[j] ==>
      Gain(primes[j], minterms, covered) <= Gain(primes[best], minterms, covered)) &&
    (forall j :: 0 <= j < best && !selected[j] ==>
      Gain(primes[j], minterms, covered) < Gain(primes[best], minterms, covered))
  }

  /** `covered'` is `covered` with everything `p` covers marked. */
  ghost predicate Marks(p: Term, minterms: seq<nat>, covered: seq<bool>, covered': seq<bool>) {
    |covered| == |minterms| && |covered'| == |minterms| &&
    forall k :: 0 <= k < |minterms| ==> (covered'[k] <==> covered[k] || Covers(p, minterms[k]))
  }

  /** One round of the loop at lines 205-244 that takes a prime: some
      minterm is unmarked, `best` is the greedy choice, it is selected and
      what it covers is marked. */
  ghost predicate GreedyMove(primes: seq<Term>, minterms: seq<nat>, s: seq<bool>, c: seq<bool>,
                             best: int, s': seq<bool>, c': seq<bool>) {
    GreedyChoice(primes, minterms, s, c, best) && !AllCovered(c) &&
    s' == s[best := true] && Marks(primes[best], minterms, c, c')
  }

  /** Where the loop stops: everything is marked or nothing is left to
      gain. */
  ghost predicate Stopped(primes: seq<Term>, minterms: seq<nat>, s: seq<bool>, c: seq<bool>) {
    |s| == |primes| && |c| == |minterms| && (AllCovered(c) || NoGain(primes, minterms, s, c))
  }

  /** `ss[i]`, `cs[i]` are the flags before round `i` and `bs[i]` the prime
      it takes. */
  ghost predicate GreedyTrace(primes: seq<Term>, minterms: seq<nat>, ss: seq<seq<bool>>,
                              cs: seq<seq<bool>>, bs: seq<int>) {
    |ss| == |bs| + 1 && |cs| == |bs| + 1 &&
    forall i :: 0 <= i < |bs| ==> GreedyMove(primes, minterms, ss[i], cs[i], bs[i], ss[i + 1], cs[i + 1])
  }

  /** The greedy loop started at `(s0, c0)` ends at `(s, c)`. */
  ghost predicate GreedyRun(primes: seq<Term>, minterms: seq<nat>, s0: seq<bool>, c0: seq<bool>,
                            s: seq<bool>, c: seq<bool>) {
    exists ss, cs, bs :: GreedyTrace(primes, minterms, ss, cs, bs) &&
      ss[0] == s0 && cs[0] == c0 && ss[|bs|] == s && cs[|bs|] == c &&
      Stopped(primes, minterms, s, c)
  }

  /** The greedy choice is unique: of two candidates, each would have to
      gain strictly more than the other. */
  lemma ChoiceUnique(primes: seq<Term>, minterms: seq<nat>, s: seq<bool>, c: seq<bool>, b1: int, b2: int)
    requires GreedyChoice(primes, minterms, s, c, b1) && GreedyChoice(primes, minterms, s, c, b2)
    ensures b1 == b2
  {
  }

  /** A round never starts from flags where the loop stops. */
  lemma MoveNotStopped(primes: seq<Term>, minterms: seq<nat>, s: seq<bool>, c: seq<bool>,
                       best: int, s': seq<bool>, c': seq<bool>)
    requires GreedyMove(primes, minterms, s, c, best, s', c')
    ensures !Stopped(primes, minterms, s, c)
  {
  }

  /** A round is determined by the flags it starts from. */
  lemma MoveUnique(primes: seq<Term>, minterms: seq<nat>, s: seq<bool>, c: seq<bool>,
                   b1: int, s1: seq<bool>, c1: seq<bool>, b2: int, s2: seq<bool>, c2: seq<bool>)
    requires GreedyMove(primes, minterms, s, c, b1, s1, c1)
    requires GreedyMove(primes, minterms, s, c, b2, s2, c2)
    ensures b1 == b2 && s1 == s2 && c1 == c2
  {
  }

  /** Two traces from the same flags agree wherever both are defined. */
  lemma {:induction false} GreedyTraceAgree(primes: seq<Term>, minterms: seq<nat>,
      ss: seq<seq<bool>>, cs: seq<seq<bool>>, bs: seq<int>,
      ss': seq<seq<bool>>, cs': seq<seq<bool>>, bs': seq<int>, i: nat)
    requires GreedyTrace(primes, minterms, ss, cs, bs) && GreedyTrace(primes, minterms, ss', cs', bs')
    requires ss[0] == ss'[0] && cs[0] == cs'[0]
    requires i <= |bs| && i <= |bs'|
    ensures ss[i] == ss'[i] && cs[i] == cs'[i]
  {
    if i > 0 {
      GreedyTraceAgree(primes, minterms, ss, cs, bs, ss', cs', bs', i - 1);
      MoveUnique(primes, minterms, ss[i - 1], cs[i - 1],
        bs[i - 1], ss[i], cs[i], bs'[i - 1], ss'[i], cs'[i]);
    }
  }

  /** A trace that ends where the loop stops is at least as long as any
      trace from the same start. */
  lemma {:induction false} GreedyStopAgree(primes: seq<Term>, minterms: seq<nat>,
      ss: seq<seq<bool>>, cs: seq<seq<bool>>, bs: seq<int>,
      ss': seq<seq<bool>>, cs': seq<seq<bool>>, bs': seq<int>)
    requires GreedyTrace(primes, minterms, ss, cs, bs) && GreedyTrace(primes, minterms, ss', cs', bs')
    requires ss[0] == ss'[0] && cs[0] == cs'[0]
    requires Stopped(primes, minterms, ss[|bs|], cs[|bs|])
    ensures |bs'| <= |bs|
  {
    var n := |bs|;
    if n < |bs'| {
      GreedyTraceAgree(primes, minterms, ss, cs, bs, ss', cs', bs', n);
      MoveNotStopped(primes, minterms, ss'[n], cs'[n], bs'[n], ss'[n + 1], cs'[n + 1]);
      assert false;
    }
  }

  /** The greedy loop has one outcome from given flags. */
  lemma GreedyRunUnique(primes: seq<Term>, minterms: seq<nat>, s0: seq<bool>, c0: seq<bool>,
                        s1: seq<bool>, c1: seq<bool>, s2: seq<bool>, c2: seq<bool>)
    requires GreedyRun(primes, minterms, s0, c0, s1, c1) && GreedyRun(primes, minterms, s0, c0, s2, c2)
    ensures s1 == s2 && c1 == c2
  {
    var ss, cs, bs :| GreedyTrace(primes, minterms, ss, cs, bs) &&
      ss[0] == s0 && cs[0] == c0 && ss[|bs|] == s1 && cs[|bs|] == c1 &&
      Stopped(primes, minterms, s1, c1);
    var ss', cs', bs' :| GreedyTrace(primes, minterms, ss', cs', bs') &&
      ss'[0] == s0 && cs'[0] == c0 && ss'[|bs'|] == s2 && cs'[|bs'|] == c2 &&
      Stopped(primes, minterms, s2, c2);
    GreedyStopAgree(primes, minterms, ss, cs, bs, ss', cs', bs');
    GreedyStopAgree(primes, minterms, ss', cs', bs', ss, cs, bs);
    GreedyTraceAgree(primes, minterms, ss, cs, bs, ss', cs', bs', |bs|);
  }

  /** One more round extends a trace. */
  lemma GreedyExtend(primes: seq<Term>, minterms: seq<nat>, ss: seq<seq<bool>>, cs: seq<seq<bool>>,
                     bs: seq<int>, best: int, s': seq<bool>, c': seq<bool>)
    requires GreedyTrace(primes, minterms, ss, cs, bs)
    requires GreedyMove(primes, minterms, ss[|bs|], cs[|bs|], best, s', c')
    ensures GreedyTrace(primes, minterms, ss + [s'], cs + [c'], bs + [best])
  {
  }

  /** A greedy step that finds something to take removes `Gain` uncovered
      minterms, so the loop of `GreedyPass` runs at most once per minterm. */
  method GreedyStep(primes: seq<Term>, minterms: seq<nat>, selected: seq<bool>, covered: seq<bool>)
    returns (selected': seq<bool>, covered': seq<bool>, best: int)
    requires Consistent(primes, minterms, selected, covered)
    ensures Consistent(primes, minterms, selected', covered')
    ensures -1 <= best < |primes|
    ensures best == -1 <==> NoGain(primes, minterms, selected, covered)
    ensures best == -1 ==> selected' == selected && covered' == covered
    ensures best >= 0 ==> selected' == selected[best := true] && !selected[best]
    ensures best >= 0 ==> Gain(primes[best], minterms, covered) > 0
    ensures best >= 0 ==> forall j :: 0 <= j < |primes| && !selected[j] ==>
      Gain(primes[j], minterms, covered) <= Gain(primes[best], minterms, covered)
    ensures best >= 0 ==> forall j :: 0 <= j < best && !selected[j] ==>
      Gain(primes[j], minterms, covered) < Gain(primes[best], minterms, covered)
    ensures best >= 0 ==> forall k :: 0 <= k < |minterms| ==>
      (covered'[k] <==> covered[k] || Covers(primes[best], minterms[k]))
    ensures best >= 0 ==> Picked(selected') == Picked(selected) + 1
    ensures best >= 0 ==> Uncovered(covered') < Uncovered(covered)
  {
    var bestCount;
    best, bestCount := PickBest(primes, minterms, selected, covered);
    if best < 0 {
      selected', covered' := selected, covered;
    } else {
      var r := MarkCovered(primes[best], minterms, covered);
      MarkCount(primes[best], minterms, covered, r);
      SelectKeeps(primes, minterms, selected, covered, best, r);
      PickedSet(selected, best);
      selected', covered' := selected[best := true], r;
    }
  }

  /** Lines 205-245: while some minterm is uncovered, select the best
      prime and mark what it covers; stop when all are marked or nothing is
      left to gain. Each round strictly shrinks the uncovered minterms. */
  method GreedyPass(primes: seq<Term>, minterms: seq<nat>, selected0: seq<bool>, covered0: seq<bool>,
                    ghost wit0: seq<nat>)
    returns (selected: seq<bool>, covered: seq<bool>, ghost wit: seq<nat>)
    requires Consistent(primes, minterms, selected0, covered0)
    ensures Consistent(primes, minterms, selected, covered)
    ensures forall j :: 0 <= j < |primes| && selected0[j] ==> selected[j]
    ensures AllCovered(covered) || NoGain(primes, minterms, selected, covered)
    ensures Picked(selected) + Uncovered(covered) <= Picked(selected0) + Uncovered(covered0)
    ensures Witnessed(primes, minterms, selected0, wit0) ==> Witnessed(primes, minterms, selected, wit)
    ensures GreedyRun(primes, minterms, selected0, covered0, selected, covered)
  {
    selected, covered, wit := selected0, covered0, wit0;
    ghost var ss, cs, bs := [selected0], [covered0], [];
    while true
      invariant Consistent(primes, minterms, selected, covered)
      invariant forall j :: 0 <= j < |primes| && selected0[j] ==> selected[j]
      invariant Picked(selected) + Uncovered(covered) <= Picked(selected0) + Uncovered(covered0)
      invariant Witnessed(primes, minterms, selected0, wit0) ==> Witnessed(primes, minterms, selected, wit)
      invariant GreedyTrace(primes, minterms, ss, cs, bs)
      invariant ss[0] == selected0 && cs[0] == covered0 && ss[|bs|] == selected && cs[|bs|] == covered
      decreases Uncovered(covered)
    {
      var all := CheckAllCovered(covered);
      if all {
        break;
      }
      var s, c, best := GreedyStep(primes, minterms, selected, covered);
      if best < 0 {
        break;
      }
      if Witnessed(primes, minterms, selected0, wit0) {
        wit := PickWitness(primes, minterms, selected, covered, wit, best);
      }
      GreedyExtend(primes, minterms, ss, cs, bs, best, s, c);
      ss, cs, bs := ss + [s], cs + [c], bs + [best];
      selected, covered := s, c;
    }
  }

  /** Some prime covers `m`. */
  ghost predicate HasCover(primes: seq<Term>, m: nat) {
    exists j :: 0 <= j < |primes| && Covers(primes[j], m)
  }

  /** Every minterm has some covering prime. */
  ghost predicate Coverable(primes: seq<Term>, minterms: seq<nat>) {
    forall k :: 0 <= k < |minterms| ==> HasCover(primes, minterms[k])
  }

  /** When the greedy pass stops and every minterm has some covering prime,
      every minterm is covered by a selected prime. */
  lemma StopCovers(primes: seq<Term>, minterms: seq<nat>, selected: seq<bool>, covered: seq<bool>)
    requires Consistent(primes, minterms, selected, covered)
    requires AllCovered(covered) || NoGain(primes, minterms, selected, covered)
    requires Coverable(primes, minterms)
    ensures forall k :: 0 <= k < |minterms| ==> CoveredBy(primes, selected, minterms[k])
  {
    forall k | 0 <= k < |minterms|
      ensures CoveredBy(primes, selected, minterms[k])
    {
      if !covered[k] {
        var j :| 0 <= j < |primes| && Covers(primes[j], minterms[k]);
        if selected[j] {
          assert false;
        } else {
          GainPositive(primes[j], minterms, covered);
          assert false;
        }
      }
    }
  }

  /** Lines 164-245: the essential pass followed by the greedy pass. The
      essential primes are all selected; when every minterm has a covering
      prime, the selection covers every minterm; and every selected prime
      has a minterm of its own, so no more primes are selected than there
      are distinct minterms. */
  /** The flags of the essential primes. */
  ghost function EssentialFlags(primes: seq<Term>, minterms: seq<nat>): seq<bool> {
    seq(|primes|, j => Essential(primes, minterms, j))
  }

  /** The marks of the minterms that a selection covers. */
  ghost function MarkedFlags(primes: seq<Term>, minterms: seq<nat>, selected: seq<bool>): seq<bool> {
    seq(|minterms|, k requires 0 <= k < |minterms| => CoveredBy(primes, selected, minterms[k]))
  }

  /** `selected` is what the greedy loop leaves when it starts from the
      essential primes and the minterms they cover. */
  ghost predicate GreedyCover(primes: seq<Term>, minterms: seq<nat>, selected: seq<bool>) {
    var s0 := EssentialFlags(primes, minterms);
    GreedyRun(primes, minterms, s0, MarkedFlags(primes, minterms, s0),
      selected, MarkedFlags(primes, minterms, selected))
  }

  /** The selection is fixed by the primes and the minterms. */
  lemma CoverUnique(primes: seq<Term>, minterms: seq<nat>, s1: seq<bool>, s2: seq<bool>)
    requires GreedyCover(primes, minterms, s1) && GreedyCover(primes, minterms, s2)
    ensures s1 == s2
  {
    var s0 := EssentialFlags(primes, minterms);
    GreedyRunUnique(primes, minterms, s0, MarkedFlags(primes, minterms, s0),
      s1, MarkedFlags(primes, minterms, s1), s2, MarkedFlags(primes, minterms, s2));
  }

  /** The marks kept by a consistent pass are those of its selection. */
  lemma ConsistentMarks(primes: seq<Term>, minterms: seq<nat>, selected: seq<bool>, covered: seq<bool>)
    requires Consistent(primes, minterms, selected, covered)
    ensures covered == MarkedFlags(primes, minterms, selected)
  {
  }

  method SelectCover(primes: seq<Term>, minterms: seq<nat>) returns (selected: seq<bool>)
    ensures GreedyCover(primes, minterms, selected)
    ensures |selected| == |primes|
    ensures forall j :: 0 <= j < |primes| && Essential(primes, minterms, j) ==> selected[j]
    ensures Coverable(primes, minterms) ==>
      forall k :: 0 <= k < |minterms| ==> CoveredBy(primes, selected, minterms[k])
    ensures Picked(selected) <= |MintermSet(minterms)|
  {
    var s0, c0 := EssentialPass(primes, minterms);
    ghost var w0 := EssentialWitnesses(primes, minterms, s0);
    var covered;
    ghost var w;
    selected, covered, w := GreedyPass(primes, minterms, s0, c0, w0);
    assert s0 == EssentialFlags(primes, minterms);
    ConsistentMarks(primes, minterms, s0, c0);
    ConsistentMarks(primes, minterms, selected, covered);
    WitnessBound(primes, minterms, selected, w);
    if Coverable(primes, minterms) {
      StopCovers(primes, minterms, selected, covered);
    }
  }
}

=== FILE: termlist.dfy ===
/**
 * The growable term arrays of `quine_mccluskey.c` and the two helpers that work on
 * them, `already_exists` and `add_term`.  An array is a sequence here; the
 * capacity doubling of `add_term` is memory management and has no
 * observable effect on the contents.
 */
module TermLists {
  import opened Terms

  /** No term occurs twice. */
  predicate NoDup(s: seq<Term>) {
    forall i, j :: 0 <= i < j < |s| ==> s[i] != s[j]
  }

  /** `already_exists`: a linear scan for an entry with these `bits` and
      `mask`, stopping at the first match. */
  method AlreadyExists(terms: seq<Term>, bits: nat, mask: nat) returns (found: bool)
    ensures found <==> Term(bits, mask) in terms
  {
    var i := 0;
    while i < |terms|
      invariant 0 <= i <= |terms|
      invariant Term(bits, mask) !in terms[..i]
    {
      if terms[i].bits == bits && terms[i].mask == mask {
        return true;
      }
      i := i + 1;
    }
    return false;
  }

  /** `add_term`: one entry appended, everything before it left alone. */
  function AddTerm(terms: seq<Term>, bits: nat, mask: nat): (r: seq<Term>)
    ensures |r| == |terms| + 1 && r[..|terms|] == terms && r[|terms|] == Term(bits, mask)
    ensures NoDup(terms) && Term(bits, mask) !in terms ==> NoDup(r)
  {
    terms + [Term(bits, mask)]
  }

  /** `terms` followed by each of `ts` in turn, except those already in the
      list by then: what a run of guarded appends builds. */
  function AppendNew(terms: seq<Term>, ts: seq<Term>): (r: seq<Term>)
    decreases |ts|
  {
    if |ts| == 0 then terms
    else
      var init := AppendNew(terms, ts[..|ts| - 1]);
      var t := ts[|ts| - 1];
      if t in init then init else init + [t]
  }

  /** A run of guarded appends holds exactly the old terms and the new
      ones, and adds no duplicate. */
  lemma {:induction false} AppendNewMembers(terms: seq<Term>, ts: seq<Term>)
    ensures forall t :: t in AppendNew(terms, ts) <==> t in terms || t in ts
    ensures NoDup(terms) ==> NoDup(AppendNew(terms, ts))
    decreases |ts|
  {
    if |ts| > 0 {
      var init := ts[..|ts| - 1];
      AppendNewMembers(terms, init);
      assert ts == init + [ts[|ts| - 1]];
    }
  }

  /** One more guarded append extends the run. */
  lemma AppendNewSnoc(terms: seq<Term>, ts: seq<Term>, t: Term)
    ensures AppendNew(terms, ts + [t]) ==
      var init := AppendNew(terms, ts); if t in init then init else init + [t]
  {
    assert (ts + [t])[..|ts|] == ts;
  }

  /** The guarded append `quine_mccluskey.c` writes twice (lines 86-88 and 96-98):
      append `t` unless an equal entry is already there. */
  method AddIfAbsent(terms: seq<Term>, t: Term) returns (r: seq<Term>)
    ensures forall u :: u in r <==> u in terms || u == t
    ensures |terms| <= |r| <= |terms| + 1 && r[..|terms|] == terms
    ensures NoDup(terms) ==> NoDup(r)
    ensures r == AppendNew(terms, [t])
  {
    var found := AlreadyExists(terms, t.bits, t.mask);
    if !found {
      r := AddTerm(terms, t.bits, t.mask);
    } else {
      r := terms;
    }
  }
}

=== FILE: terms.dfy ===
/**
 * Product terms and the combination step of the Quine–McCluskey method.
 *
 * A term is the pair (`bits`, `mask`) of `term_t`: a position whose `mask`
 * bit is set is a "don't care" (a dash); every other position is fixed to
 * the value of the corresponding `bits` bit.  The C record's third field,
 * `combined`, is per-round bookkeeping and is kept beside the terms of a
 * round instead (see module `Generation`).
 */
module Terms {
  import opened Bits

  datatype Term = Term(bits: nat, mask: nat)

  /** `covers_term`: the minterm agrees with the term on every position the
      term does not mask (`minterm & ~mask == bits & ~mask`). */
  predicate Covers(t: Term, m: nat) {
    Clear(m, t.mask) == Clear(t.bits, t.mask)
  }

  /** The reading of `Covers` position by position. */
  ghost predicate Agrees(t: Term, m: nat) {
    forall i: nat :: !Bit(t.mask, i) ==> Bit(m, i) == Bit(t.bits, i)
  }

  /** No masked position carries a set bit (`bits & mask == 0`). Every term
      the algorithm builds has this shape. */
  predicate WellFormed(t: Term) {
    And(t.bits, t.mask) == 0
  }

  /** The pair test of the combination step: equal masks, and bits that
      differ in exactly one position. */
  predicate Combinable(a: Term, b: Term) {
    a.mask == b.mask && SingleBit(Xor(a.bits, b.bits))
  }

  /** The merged term: the common bits, with the differing position added
      to the mask. */
  function Combine(a: Term, b: Term): (c: Term) {
    Term(And(a.bits, b.bits), Or(a.mask, Xor(a.bits, b.bits)))
  }

  /** The term a minterm starts as (`add_term(..., minterms[i], 0)`). */
  function Minterm(m: nat): (t: Term) {
    Term(m, 0)
  }

  /** Number of masked positions: the round in which the term is formed. */
  function Rank(t: Term): (r: nat) {
    Pop(t.mask)
  }

  /** Every value the term covers is one of the minterms. */
  ghost predicate Implicant(t: Term, minterms: seq<nat>) {
    forall x: nat :: Covers(t, x) ==> x in minterms
  }

  // ---------------------------------------------------------------------
  // Coverage
  // ---------------------------------------------------------------------

  /** `covers_term` holds exactly when the minterm agrees with the term on
      every unmasked position. */
  lemma CoversBits(t: Term, m: nat)
    ensures Covers(t, m) <==> Agrees(t, m)
  {
    var l, r := Clear(m, t.mask), Clear(t.bits, t.mask);
    forall i: nat
      ensures Bit(l, i) == (Bit(m, i) && !Bit(t.mask, i))
      ensures Bit(r, i) == (Bit(t.bits, i) && !Bit(t.mask, i))
    {
      BitClear(m, t.mask, i);
      BitClear(t.bits, t.mask, i);
    }
    if Agrees(t, m) {
      Extensional(l, r);
    }
  }

  /** A starting term covers its own minterm and nothing else. */
  lemma MintermCovers(m: nat, x: nat)
    ensures WellFormed(Minterm(m)) && Rank(Minterm(m)) == 0
    ensures Covers(Minterm(m), x) <==> x == m
  {
  }

  /** A well-formed term covers its own `bits`, and `bits | mask`. */
  lemma CoversCorners(t: Term)
    requires WellFormed(t)
    ensures Covers(t, t.bits) && Covers(t, Or(t.bits, t.mask))
  {
    forall i: nat | !Bit(t.mask, i)
      ensures Bit(Or(t.bits, t.mask), i) == Bit(t.bits, i)
    {
      BitOr(t.bits, t.mask, i);
    }
    CoversBits(t, Or(t.bits, t.mask));
  }

  /** A well-formed implicant of `n`-variable minterms is itself an
      `n`-variable term. */
  lemma ImplicantFits(t: Term, minterms: seq<nat>, n: nat)
    requires WellFormed(t) && Implicant(t, minterms)
    requires forall m :: m in minterms ==> Fits(m, n)
    ensures Fits(t.bits, n) && Fits(t.mask, n)
  {
    CoversCorners(t);
    assert Or(t.bits, t.mask) in minterms;
    FitsOrParts(t.bits, t.mask, n);
  }

  // ---------------------------------------------------------------------
  // Combination
  // ---------------------------------------------------------------------

  /** The position at which two combinable well-formed terms differ: it is
      unmasked, and it is the only position where their bits differ. */
  lemma DiffPosition(a: Term, b: Term) returns (p: nat)
    requires WellFormed(a) && WellFormed(b) && Combinable(a, b)
    ensures Xor(a.bits, b.bits) == Pow2(p)
    ensures !Bit(a.mask, p) && Bit(a.bits, p) != Bit(b.bits, p)
    ensures forall i: nat :: i != p ==> Bit(a.bits, i) == Bit(b.bits, i)
  {
    p := SingleBitPosition(Xor(a.bits, b.bits));
    forall i: nat
      ensures Bit(a.bits, i) != Bit(b.bits, i) <==> i == p
    {
      BitXor(a.bits, b.bits, i);
      BitPow2(p, i);
    }
    Disjoint(a.bits, a.mask);
    Disjoint(b.bits, b.mask);
    assert !(Bit(a.bits, p) && Bit(a.mask, p));
    assert !(Bit(b.bits, p) && Bit(b.mask, p));
  }

  /** The bits of a merged term, position by position. */
  lemma CombineBits(a: Term, b: Term, p: nat, i: nat)
    requires Xor(a.bits, b.bits) == Pow2(p)
    ensures Bit(Combine(a, b).bits, i) == (Bit(a.bits, i) && Bit(b.bits, i))
    ensures Bit(Combine(a, b).mask, i) == (Bit(a.mask, i) || i == p)
  {
    BitAnd(a.bits, b.bits, i);
    BitOr(a.mask, Pow2(p), i);
    BitPow2(p, i);
  }

  /** The merged term covers exactly what the two terms cover together. */
  lemma CombineCovers(a: Term, b: Term, x: nat)
    requires WellFormed(a) && WellFormed(b) && Combinable(a, b)
    ensures Covers(Combine(a, b), x) <==> Covers(a, x) || Covers(b, x)
  {
    var c := Combine(a, b);
    var p := DiffPosition(a, b);
    forall i: nat {
      CombineBits(a, b, p, i);
    }
    CoversBits(a, x);
    CoversBits(b, x);
    CoversBits(c, x);
    if Agrees(c, x) {
      if Bit(x, p) == Bit(a.bits, p) {
        forall i: nat | !Bit(a.mask, i)
          ensures Bit(x, i) == Bit(a.bits, i)
        {
          if i != p {
            assert !Bit(c.mask, i);
          }
        }
      } else {
        forall i: nat | !Bit(b.mask, i)
          ensures Bit(x, i) == Bit(b.bits, i)
        {
          if i != p {
            assert !Bit(c.mask, i);
          }
        }
      }
    }
    if Agrees(a, x) || Agrees(b, x) {
      forall i: nat | !Bit(c.mask, i)
        ensures Bit(x, i) == Bit(c.bits, i)
      {
        assert !Bit(a.mask, i) && i != p;
      }
    }
  }

  /** Merging keeps terms well formed and frees exactly one more position. */
  lemma CombineShape(a: Term, b: Term)
    requires WellFormed(a) && WellFormed(b) && Combinable(a, b)
    ensures WellFormed(Combine(a, b))
    ensures Rank(Combine(a, b)) == Rank(a) + 1
  {
    var c := Combine(a, b);
    var p := DiffPosition(a, b);
    forall i: nat
      ensures !(Bit(c.bits, i) && Bit(c.mask, i))
    {
      CombineBits(a, b, p, i);
      Disjoint(a.bits, a.mask);
      if Bit(a.mask, i) {
        assert !(Bit(a.bits, i) && Bit(a.mask, i));
      }
    }
    Disjoint(c.bits, c.mask);
    PopAddBit(a.mask, p);
  }

  /** Neither the test nor the merge depends on the order of the pair. */
  lemma CombineSymmetric(a: Term, b: Term)
    ensures Combinable(a, b) <==> Combinable(b, a)
    ensures Combine(a, b) == Combine(b, a) || a.mask != b.mask
  {
    AndCommutes(a.bits, b.bits);
    XorCommutes(a.bits, b.bits);
  }

  /** Every well-formed term with a masked position is the merge of two
      combinable well-formed terms one rank lower, each covering part of
      what it covers: the converse of `CombineShape`. */
  lemma Split(t: Term) returns (a: Term, b: Term)
    requires WellFormed(t) && Rank(t) > 0
    ensures WellFormed(a) && WellFormed(b) && Combinable(a, b)
    ensures Combine(a, b) == t && Rank(a) + 1 == Rank(t)
    ensures forall x: nat :: Covers(a, x) ==> Covers(t, x)
    ensures forall x: nat :: Covers(b, x) ==> Covers(t, x)
  {
    var p := SomeBit(t.mask);
    var u := Pow2(p);
    var m := Clear(t.mask, u);
    a := Term(t.bits, m);
    b := Term(Or(t.bits, u), m);
    ClearThenSet(t.mask, p);
    Disjoint(t.bits, t.mask);
    forall i: nat
      ensures Bit(m, i) == (Bit(t.mask, i) && i != p)
      ensures Bit(b.bits, i) == (Bit(t.bits, i) || i == p)
      ensures Bit(Xor(a.bits, b.bits), i) == Bit(u, i)
      ensures Bit(And(a.bits, b.bits), i) == Bit(t.bits, i)
    {
      BitClear(t.mask, u, i);
      BitOr(t.bits, u, i);
      BitPow2(p, i);
      BitXor(a.bits, b.bits, i);
      BitAnd(a.bits, b.bits, i);
      assert !(Bit(t.bits, i) && Bit(t.mask, i));
    }
    Extensional(Xor(a.bits, b.bits), u);
    Extensional(And(a.bits, b.bits), t.bits);
    Pow2SingleBit(p);
    forall i: nat
      ensures !(Bit(a.bits, i) && Bit(a.mask, i))
      ensures !(Bit(b.bits, i) && Bit(b.mask, i))
    {
      assert !(Bit(t.bits, i) && Bit(t.mask, i));
    }
    Disjoint(a.bits, a.mask);
    Disjoint(b.bits, b.mask);
    PopAddBit(m, p);
    forall x: nat
      ensures Covers(a, x) ==> Covers(t, x)
      ensures Covers(b, x) ==> Covers(t, x)
    {
      CombineCovers(a, b, x);
    }
  }
}
